=== FILE: README.md ===
# A Dafny model of the hashcash wisdom gateway

The gateway hands out quotes ("wisdom") over TCP. Before it sends one, the
client must do a proof of work. The client asks for a task. The server
issues a Hashcash version-1 stamp `1:bits:date:resource::rand:counter` and
remembers it in a pool. The client searches for a counter whose SHA-1 hex
digest starts with `bits` zero characters and sends the solved stamp back.
The server parses the stamp and checks it: sender, pool entry, expiry,
digest. If it passes, the server answers with a random quote from its
store. Each message is one line of the form `<type>#<payload>\n`.

The model has these modules:

| file | module | models |
|---|---|---|
| `wrappers.dfy` | `Wrappers` | `Option`, `Result` and `Outcome` |
| `gostrings.dfy` | `GoStrings` | Go's `strings.TrimSpace`, `Split` with a one-character separator, and `Join` |
| `gostrconv.dfy` | `GoStrconv` | `strconv.Atoi` and `Itoa` on a 64-bit `int`, and the `int8` conversion |
| `foreign.dfy` | `Foreign` | SHA-1 hex, Base64 and the `20060102150405` date layout, as function values plus the laws the proofs may use; `Truncate` to the second |
| `message.dfy` | `Messages` | the line codec (`message.go`) |
| `hashcash.dfy` | `Hashcash` | the stamp (`hashcash.go`): issue, text form, parse cascade, digest check, counter search, expiry, sender check |
| `pool.dfy` | `Pool` | the challenge pool (`pool.go`) |
| `cache.dfy` | `Cache` | the quote store (`cache.go`) |
| `server.dfy` | `Server` | `handleMessages`, `responseTask` and `responseWisdom`. A connection is a fold over the lines read; the result is the messages written and the pool left behind. |
| `client.dfy` | `Client` | `validateResponse`, `request` and `GetWisdom`, run against a connection given as a function from the lines written so far to the line read back |
| `protocol.dfy` | `Protocol` | the two sides connected: an honest client talking to the server gets a quote from the store, and a forged stamp gets one too |

The model has no clock, no randomness and no I/O. Each line the server reads
comes with the clock reading, the outcome of `crypto/rand` and the draw of
`GetRandom`. Map iteration order is a parameter of the store. `HashCash.Key`
is called in the code, but its definition is not among the files modelled.
It is a parameter, `key: HashCash -> string`. The honest-session theorem
needs one assumption about it: the key does not depend on the counter
(`Protocol.IgnoresCounter`). Instants are integers counting nanoseconds
since the Unix epoch, in UTC.

Two behaviours of the code are worth stating up front. The model follows
the code in both:

- `responseWisdom` stops after every failed check except one. When the
  sender does not match, it writes "client not found in task requester
  list" and returns (`internal/server/server.go:186-189`). When the stamp's
  key is not in the pool, it writes the same error and carries on to the
  expiry, digest and store checks (`internal/server/server.go:191-194`).
  See Findings.
- A stamp's date is cut to the whole second when it is issued
  (`pkg/hashcash/hashcash.go:56`). So a freshly issued stamp is unexpired
  at the moment of issue iff the ttl is at least the sub-second part of
  the clock reading that was cut away (`Hashcash.IssuedExpiry`). A positive
  ttl smaller than that part leaves the stamp already expired.

## Model

| member | source | states |
|---|---|---|
| GoStrings.TrimSpace | internal/message/message.go:26 | The result has no white space at either end. It is a slice `s[i..j]` of the input, with only white space cut away on each side. |
| GoStrings.TrimSpaceAbsorbs | internal/message/message.go:26 | White space added around a text never changes what trimming returns. |
| GoStrings.TrimSpaceOfTrimmed | internal/message/message.go:26 | A text with no white space at either end is returned unchanged. |
| GoStrings.SplitWithoutSeparator | internal/message/message.go:28 | A text without the separator splits into exactly one piece, itself. For the empty text that piece is `""`. |
| GoStrings.SplitAround | pkg/hashcash/hashcash.go:67 | A separator occurrence cuts the text into the pieces of its left side followed by the pieces of its right side. |
| GoStrings.SplitPiecesFree | internal/message/message.go:28 | No piece of a split contains the separator. |
| GoStrings.SplitKeepsOut | pkg/hashcash/hashcash.go:67 | A character the text lacks is in none of its pieces. |
| GoStrings.JoinKeepsOut | pkg/hashcash/hashcash.go:112 | Joining pieces that lack a character gives a text without that character. |
| GoStrings.JoinSplit | pkg/hashcash/hashcash.go:67-112 | Joining the pieces of a split with the same separator gives back the original text. This is why a sender that contains colons survives parsing. |
| GoStrings.Split | internal/message/message.go:28 | `strings.Split` with a one-character separator gives at least one piece, `[""]` for the empty text. Its pieces are fixed by `GoStrings.SplitPiecesFree`, `GoStrings.SplitAround` and `GoStrings.JoinSplit`. |
| GoStrings.Join | pkg/hashcash/hashcash.go:112 | `strings.Join`: the pieces with the separator between each pair. `GoStrings.JoinSplit` proves it inverts `Split`, and `GoStrings.JoinKeepsOut` that it adds only the separator. |
| GoStrconv.Atoi | internal/message/message.go:33-36 | Accepts exactly the texts made of an optional `+` or `-` followed by one or more decimal digits (leading zeros allowed, so `05` and `-0` are read) whose value fits in 64 bits. The value is the one the digits denote, negated after `-`. |
| GoStrconv.Itoa | pkg/hashcash/hashcash.go:144 | The output is canonical decimal. It starts with `-` exactly when the value is negative, and the rest is digits. There is no leading zero, except in `0` itself. |
| GoStrconv.AtoiItoa | pkg/hashcash/hashcash.go:77-144 | `Atoi` reads back every 64-bit value that `Itoa` writes. |
| GoStrconv.ToInt8 | internal/message/message.go:38 | The result lies in `-128..127` and agrees with the input modulo 256. |
| GoStrconv.ToInt8Identity | internal/message/message.go:38-40 | A value already in the `int8` range is unchanged. |
| GoStrconv.AtoiExamples | pkg/hashcash/hashcash_test.go:46-47 | `"w"`, `""` and `"+"` are rejected. `"-1"`, `"+7"`, `"257"`, `"05"` and `"-0"` are read as -1, 7, 257, 5 and 0. |
| Foreign.Truncate | pkg/hashcash/hashcash.go:56 | The result is the whole second at or just below the instant. |
| Foreign.BytesTextOfTextBytes | pkg/hashcash/hashcash.go:96-144 | Converting a byte text to bytes and back gives the same text. |
| Messages.Decode | internal/message/message.go:24-48 | A decoded message always has one of the five known types, and its payload never contains `#`. |
| Messages.DecodeFields | internal/message/message.go:29-45 | Success requires at least two fields, and the payload is exactly the second field. |
| Messages.NewTaskRequest | internal/message/message.go:55-57 | The type is RequestTask and the payload is empty. |
| Messages.Encode | internal/message/message.go:59-61 | `Message.String` is one line: it ends in a newline and, when the payload has none, holds no other. It contains a `#`. `Messages.DecodeEncode` proves that decoding gives the message back. |
| Messages.TaskRequestLine | internal/message/message.go:55-61 | On the wire a task request is the three characters `1#\n`. |
| Messages.EncodeKnownType | internal/message/message.go:59-61 | A known type is written as a single digit. |
| Messages.DecodeFieldsKnown | internal/message/message.go:33-45 | Fields headed by a known type in decimal decode to that type and the second field. |
| Messages.EncodedFields | internal/message/message.go:26-28 | A trimmed encoded line splits into exactly the type text and the payload. |
| Messages.DecodeEncode | internal/message/message.go:24-61 | Decoding an encoded message returns it unchanged, provided its type is known and its payload has no `#` and no trailing white space. |
| Messages.DecodeIgnoresSurroundingSpace | internal/message/message.go:26 | White space around a line never changes what it decodes to. |
| Messages.DecodeNeedsDelimiter | internal/message/message.go:28-31 | A line without `#` is rejected with IncorrectMessageFormat. |
| Messages.DecodeTypeField | internal/message/message.go:33-45 | For a line `a#b` whose type field `a` starts with a non-space and holds no `#`: accepted iff `Atoi` reads `a` and the `int8` truncation of that value is in 0..4. The payload is then the first `#`-piece of `b` with its trailing white space trimmed. |
| Messages.DecodeKeepsSecondField | internal/message/message.go:45 | Anything after a second `#` is dropped from the payload. |
| Messages.DecodeWrapsType | internal/message/message.go:38-43 | `257#x` decodes as a task request with payload `x`. |
| Messages.DecodeRejectsUnknownType | internal/message/message.go:41-42 | `5#x` is rejected. |
| Messages.DecodeRejectsNonNumericType | internal/message/message.go:33-36 | `x#1` is rejected. |
| Messages.ReadLine | internal/client/client.go:108 | The text read is a prefix of what waits on the connection. It has no newline before its last character, and it ends at the first newline when there is one. |
| Messages.ReadLineThrough | internal/server/server.go:128 | Reading stops at the first newline, whatever follows it. |
| Messages.ReadLineFramed | internal/server/server.go:128 | An encoded message whose payload has no newline is read back whole. |
| Messages.ReadLineCutsPayload | internal/client/client.go:108 | An encoded message whose payload holds a newline is read back as the encoding of the payload's first line. |
| Messages.DecodeCutReply | internal/client/client.go:108-113 | Such a reply decodes to the same type with only the payload's first line. |
| Hashcash.NonceBytes | pkg/hashcash/hashcash.go:49-59 | The bytes read big-endian give the drawn number. There is no leading zero byte, and zero gives no bytes at all. |
| Hashcash.NewHashCash | pkg/hashcash/hashcash.go:44-61 | Fails with ZeroBitsMustBeMoreThanZero iff `zeroBits <= 0`, and with the random-source error when the draw fails. On success the bits and sender are as given, the extension is empty, the counter is 0 and the date is the clock cut to the second. |
| Hashcash.Parse | pkg/hashcash/hashcash.go:64-122 | A parsed stamp has positive bits and a counter of at least 0, both within 64 bits, and a date the layout can write. |
| Hashcash.String | pkg/hashcash/hashcash.go:137-146 | The text form: version `1`, the bits, the date, the sender, an empty extension, the Base64 nonce and the Base64 decimal counter, joined by `:`. `Hashcash.StringParseString` and `Hashcash.ParseString` prove it parses back. |
| Hashcash.Hash | pkg/hashcash/hashcash.go:124-135 | The hex SHA-1 digest of the text form, so it depends on the text form alone (`Hashcash.ValidateNormalized`). |
| Hashcash.ParseParts | pkg/hashcash/hashcash.go:68-121 | The same bounds, for text already split at `:`. |
| Hashcash.AllZero | pkg/hashcash/hashcash.go:158-162 | True iff every character is `0`. |
| Hashcash.Validate | pkg/hashcash/hashcash.go:148-165 | An error iff the digest is shorter than `zeroBits`. Otherwise true iff the first `zeroBits` digest characters are all `0`. |
| Hashcash.CalculateFrom | pkg/hashcash/hashcash.go:170-179 | The search changes only the counter, and never moves it backwards. |
| Hashcash.CalculateFromFinds | pkg/hashcash/hashcash.go:170-182 | The search stops at the first counter that validates or cannot be judged, or just past `maxTries`. Every counter it skips is rejected. |
| Hashcash.Calculate | pkg/hashcash/hashcash.go:167-183 | Only the counter changes. With `maxTries <= 0` the stamp is untouched and the result is MaxTriesExceeded. A success is the smallest counter in `0..maxTries` that validates. MaxTriesExceeded after a real search leaves the counter at `maxTries + 1`, with every counter rejected. A digest error is passed through. |
| Hashcash.ParseReportsFirstViolation | pkg/hashcash/hashcash.go:67-108 | Parsing fails iff some check fails, and it reports the earliest failing one. The order is header, version, bits number, bits sign, date, counter Base64, counter number, nonce Base64. |
| Hashcash.SplitFields | pkg/hashcash/hashcash.go:20 | The text form splits into version, bits and date, then the pieces of the sender, then extension, nonce and counter. |
| Hashcash.ParseFields | pkg/hashcash/hashcash.go:64-122 | Seven well-formed fields parse to the stamp they describe, whatever colons the sender holds. |
| Hashcash.ParseWellFormed | pkg/hashcash/hashcash.go:72-121 | Parts that pass every check become a stamp. Its sender is the middle parts rejoined with `:` and its extension is `parts[len-3]`. |
| Hashcash.NoDelimiterInBase64 | pkg/hashcash/hashcash.go:143-144 | Base64 text contains no `:`. |
| Hashcash.ParseString | pkg/hashcash/hashcash.go:64-146 | Parsing the text form gives the stamp back, with the date cut to the second and the extension empty. |
| Hashcash.StringParseString | pkg/hashcash/hashcash.go:64-146 | Writing a parsed text form back reproduces the text. |
| Hashcash.StringOfNormalized | pkg/hashcash/hashcash.go:137-146 | The text form ignores the sub-second part of the date and the extension. |
| Hashcash.ValidateNormalized | pkg/hashcash/hashcash.go:148-165 | A stamp and its parsed-back form validate alike. |
| Hashcash.ParseSender | pkg/hashcash/hashcash.go:110-112 | The sender of a parsed stamp is the text between the date field and the extension field, rejoined with `:`. |
| Hashcash.ParseIssued | pkg/hashcash/hashcash.go:44-122 | A freshly issued stamp parses back to itself exactly. |
| Hashcash.SampleHead | pkg/hashcash/hashcash_test.go:43 | The head of the sample stamp is version, bits, date and sender, joined with `:`. |
| Hashcash.SampleFields | pkg/hashcash/hashcash_test.go:43 | The sample stamp is the seven fields of the test case. |
| Hashcash.ParseSample | pkg/hashcash/hashcash_test.go:43 | When its date and nonce fields decode and its counter field `MA==` decodes to the byte `'0'`, the sample parses with 5 zeros, counter 0, an empty extension and the sender `127.0.0.1:5040`. |
| Hashcash.ValidateLawful | pkg/hashcash/hashcash.go:154-156 | With a 40-character digest, Validate fails iff more than 40 zeros are asked for. |
| Hashcash.CalculateSucceedsIff | pkg/hashcash/hashcash.go:167-183 | With at most 40 zeros, the search succeeds iff the budget is positive and some counter in `0..maxTries` validates. |
| Hashcash.CalculateIgnoresCounter | pkg/hashcash/hashcash.go:168-169 | The search never depends on the counter the stamp held before. |
| Hashcash.CheckSender | pkg/hashcash/hashcash.go:189-191 | True iff the stamp's sender is the given client address. |
| Hashcash.SolvedKeepsSender | pkg/hashcash/hashcash.go:167-191 | The sender check gives the same answer before and after the counter search. |
| Hashcash.ExpiredMonotone | pkg/hashcash/hashcash.go:193-195 | Once expired, a stamp stays expired as time passes. |
| Hashcash.Expired | pkg/hashcash/hashcash.go:193-195 | The date plus the ttl lies strictly before the clock. `Hashcash.ExpiredMonotone` and `Hashcash.IssuedExpiry` prove how this behaves over time. |
| Hashcash.IssuedExpiry | pkg/hashcash/hashcash.go:56 | A stamp is unexpired at the moment it is issued iff the ttl covers the sub-second part that truncating the date dropped. |
| Pool.Add | pkg/hashcash/pool.go:18-22 | The stamp is stored under its key, and every other key is unchanged. |
| Pool.Remove | pkg/hashcash/pool.go:24-28 | The stamp's key is absent afterwards, and every other key is unchanged. |
| Pool.Get | pkg/hashcash/pool.go:30-35 | Finds an entry iff the key is present, and returns that entry. |
| Pool.GetAfterAdd | pkg/hashcash/pool.go:18-35 | After adding a stamp, looking up its key returns that stamp. |
| Pool.GetAfterRemove | pkg/hashcash/pool.go:24-35 | After removing a stamp, looking up its key finds nothing. |
| Pool.AddOverwrites | pkg/hashcash/pool.go:21 | A later stamp with the same key replaces the earlier one. |
| Pool.RemoveAbsent | pkg/hashcash/pool.go:27 | Removing an absent key leaves the pool unchanged. |
| Pool.KeyedBySelfPreserved | pkg/hashcash/pool.go:21-27 | Add and Remove keep every entry under its own key. |
| Cache.Set | internal/cache/cache.go:26-30 | The key maps to the value, and every other key is unchanged. |
| Cache.Get | internal/cache/cache.go:32-38 | Returns the stored value and `true` iff the key is present. Otherwise it returns `""` and `false`. |
| Cache.NewCache | internal/cache/cache.go:14-24 | Stores `data[i]` under key `i` for every index and holds no other key. Ascending key order enumerates the store. |
| Cache.GetRandom | internal/cache/cache.go:40-57 | Returns `("", false)` iff the store is empty. Otherwise it returns `true` and a value held in the store. |
| Cache.GetRandomReachesAll | internal/cache/cache.go:48-56 | Every quote in the store is returned for some draw. |
| Server.ErrorMessage | internal/server/server.go:236-241 | An error is written as an Error message carrying its text. |
| Server.RespondTask | internal/server/server.go:155-175 | On success: writes one ResponseTask whose payload is the text form of a new stamp (sender = clientID, counter 0, configured bits) and adds that stamp to the pool. Otherwise: writes "internal error" and leaves the pool unchanged. |
| Server.Verdict | internal/server/server.go:198-227 | The wisdom is sent iff the stamp is unexpired, validates and the store is non-empty. Otherwise the first failing check picks the error: expiry, then a digest that cannot be judged ("internal error"), then a digest without enough zeros, then an empty store. |
| Server.Consume | internal/server/server.go:191-196 | The entry found under the stamp's key is removed. An absent key leaves the pool unchanged. |
| Server.RespondWisdom | internal/server/server.go:177-228 | Wisdom is released iff the payload parses, the sender matches and the checks pass. Pool presence is not one of the conditions. A parse failure or a sender mismatch writes one error and leaves the pool. Otherwise the pool entry is consumed, and a missing entry adds a "client not found" line before the verdict. |
| Server.HandleMessages | internal/server/server.go:124-153 | A session always writes at least one message. |
| Server.HandleMessagesErrors | internal/server/server.go:127-151 | End of input writes "internal error". An undecodable line writes "incorrect message format". Any other decoded type writes "unknown message type". Each ends the session without touching the pool. |
| Server.HandleMessagesTask | internal/server/server.go:140-145 | A task request is answered and the session continues with the remaining lines. |
| Server.HandleMessagesWisdom | internal/server/server.go:146-147 | A wisdom request is answered by `responseWisdom` and ends the session. |
| Server.HandleMessagesEnds | internal/server/server.go:124-153 | Every session ends with an error or the wisdom. Task responses only ever come before it. |
| Server.HandleMessagesFinal | internal/server/server.go:146-151 | After a first line that is not a task request, the rest of the input is irrelevant. |
| Server.HandleMessagesStops | internal/server/server.go:127-153 | Lines after the first non-task line are never read. |
| Server.HandleMessagesKeyedBySelf | internal/server/server.go:140-196 | Every pool entry stays under its own key through a whole session. |
| Server.RespondWisdomIgnoresPool | internal/server/server.go:191-227 | Whether wisdom is released never depends on the pool. |
| Server.ReplayReleasesWisdom | internal/server/server.go:191-227 | A sound stamp that the pool does not hold gets "client not found" followed by the wisdom. |
| Server.RespondWisdomChecked | internal/server/server.go:186-227 | With the `return` restored: one message, and wisdom iff the stamp parses, comes from the client, is in the pool and passes the checks. |
| Server.CheckedAgreesWhenIssued | internal/server/server.go:191-196 | For a stamp the pool holds, the corrected handler behaves exactly like the written one. |
| Server.CheckedAcceptsEasierStamp | internal/server/server.go:191-212 | Neither handler compares a submitted stamp's bits with the pooled entry or the configured difficulty. A stamp under a pooled key that asks for fewer zeros than configured still gets the wisdom when its own digest passes. |
| Server.CheckedRejectsReplay | internal/server/server.go:191-196 | With the corrected handler, a stamp that obtained wisdom is refused with "client not found" the second time. |
| Client.ValidateResponse | internal/client/client.go:135-152 | Passes iff the reply type answers the request type. An Error reply fails with its own text. Any other mismatch fails with IncorrectResponseMessageType. |
| Client.Request | internal/client/client.go:102-124 | Writes the encoded message. Succeeds iff the connection answers, the answer decodes and its type answers the request. The value is then the reply's payload, and an I/O failure becomes an Io error. |
| Client.GetWisdom | internal/client/client.go:50-82 | The first line written is a task request. At most two lines are written, and a success writes two. |
| Client.Challenge | internal/client/client.go:53-63 | A challenge taken from the task reply has positive bits. |
| Client.GetWisdomStops | internal/client/client.go:53-67 | A failed task exchange, an unparsable challenge or a failed search each end the run with that failure, after one line. |
| Client.GetWisdomSendsSolution | internal/client/client.go:60-76 | A second line is written iff the challenge parses and the search succeeds. That line is a wisdom request carrying the solved stamp's text form. |
| Client.RequestAnswered | internal/client/client.go:113-123 | A reply that decodes to the answering type hands its payload back unchanged. |
| Client.GetWisdomSecondRequest | internal/client/client.go:65-81 | Once the challenge is parsed and solved, the run's result is the result of the wisdom request. |
| Hashcash.StringFreeOf | pkg/hashcash/hashcash.go:137-146 | A character that is not `:`, `-` or in the Base64 alphabet, such as the codec's `#`, appears in a stamp's text form only if it appears in the sender. |
| Hashcash.FieldsFree | pkg/hashcash/hashcash.go:20 | The stamp layout adds no character other than `:`. |
| Hashcash.StringEndsVisible | pkg/hashcash/hashcash.go:137-146 | A stamp's text form never ends in white space. |
| Hashcash.ParsedSenderFreeOf | pkg/hashcash/hashcash.go:112 | A character other than `:` that the parsed text lacks, such as `#`, is not in the parsed sender. |
| Client.SolutionValidates | internal/client/client.go:65-76 | The second line decodes to a wisdom request. Its payload parses back to the solved stamp, and that stamp validates. |
| Protocol.Issued | internal/server/server.go:158 | The issued challenge carries the client's address, counter 0, no extension, the configured bits and the clock cut to the second. |
| Protocol.StampCrossesWire | pkg/hashcash/hashcash.go:137-146 | A stamp with a whole-second date, no extension and a sender without `#` crosses the line codec unchanged and parses back to itself. |
| Protocol.IssuedRoundTrip | internal/server/server.go:158-171 | The issued challenge crosses the wire, holds no newline, and parses back to itself. |
| Protocol.SolutionRoundTrip | internal/client/client.go:60-74 | The solved stamp differs from the challenge only in its counter. It crosses the wire, parses back to itself, validates and has the challenge's key. |
| Protocol.AnswerToSolution | internal/server/server.go:191-227 | A valid, unexpired solution of a pooled challenge draws exactly the wisdom and removes the challenge's key. The corrected handler answers the same way. |
| Protocol.ServerGrants | internal/server/server.go:140-147 | A task request followed by its solution writes the challenge, then a quote. The pool ends as it began, minus the challenge's key. |
| Protocol.ClientObtains | internal/client/client.go:50-82 | A connection that answers the task with a challenge and the solution with a quote makes the client return that quote, after writing exactly those two lines. |
| Protocol.ServingChallenge | internal/server/server.go:141-145 | When the server is the connection, the client's read after the task request takes the issued challenge's line up to its first newline. |
| Protocol.ServingWisdom | internal/server/server.go:146-147 | When the server is the connection, the client's read after the solution takes the line of a quote from the store, up to its first newline. The pool loses the challenge. |
| Protocol.HonestReplies | internal/server/server.go:140-147 | An honest client reads the challenge's whole line and then a quote's whole line. The quote comes from the store and has no newline. |
| Protocol.HonestSession | internal/client/client.go:50-82 | An honest client connected to the server gets a quote from the store. Each reply is read up to its first newline. The server's pool loses exactly the challenge it issued. |
| Protocol.ForgedStampObtainsWisdom | internal/server/server.go:191-194 | A stamp the client made itself, never issued, gets "client not found" and then the wisdom. The corrected handler answers only "client not found". |

## Left out

- Network, listener, accept loop, wait group, shutdown, and the read deadline (`internal/server/server.go:54-122`): concurrency and I/O. The remote address is the parameter `clientID`.
- Server.HandleMessages: a fresh `bufio.Reader` per iteration can drop bytes already buffered. The model assumes each line arrives whole and takes a failed read as the end of the input.
- Client connection setup and teardown (`Connect`, `Close`, `send`): the connection is a function from the lines written to the line read back, or an I/O error.
- `sync.RWMutex` in the pool and the store: the maps are used sequentially.
- SHA-1, Base64 and the date layout are not implemented. `Foreign.Lawful` lists the only facts the proofs use about them: a 40-character lower-case hex digest, Base64 decoding that inverts encoding over its own alphabet, and a 14-digit date layout that round-trips whole seconds.
- The clock, `crypto/rand` and `rand.Intn` are values supplied with each line.
- Hashcash.NewHashCash: the draw is any natural number. The model does not bound it below `math.MaxInt32` as `rand.Int` does.
- Pool.Add: `HashCash.Key` is a parameter, because its definition is not among the files. The honest-session theorem assumes the key ignores the counter.
- Hashcash.Calculate: does not model 64-bit wrap-around of the counter. At `maxTries = MaxInt64` the Go loop condition never fails, so the Go loop wraps instead of stopping; the model stops at `maxTries + 1`.
- The configured ttl is in nanoseconds, as an unbounded integer. The overflow of `time.Duration(cfg.HashCashTTL) * time.Millisecond` is not modelled.
- Hashcash.Expired: the date plus the ttl is not capped at Go's time range.
- Cache.GetRandom: Go's map iteration order and the seeded `rand.Intn` are the parameters `order` and `pick`.
- Logging; the client's use of the server's error text as a format string (`internal/client/client.go:138`), where the model carries the text unchanged; configuration loading and process start-up (`internal/config`, `cmd`).
- `internal/server/client_pool.go` and the unused `errorMessage` (`internal/server/errors.go:17-22`): neither is called on any path modelled. The six error strings of `internal/server/errors.go:9-14` are the constants of `Server`.
- Go strings are byte strings; the model's are sequences of Unicode characters. An input line that is not valid UTF-8 cannot be written down. `len(hash)` in `Validate` is a byte length, and it equals the model's character count only because the digest is ASCII.
- The corrected handler still takes the stamp's own bits, date and nonce, not the pooled entry's (`Server.CheckedAcceptsEasierStamp`). Whether that lets a client pick its own difficulty depends on `HashCash.Key`, whose definition is not among the files.
- Hashcash.Hash: the write to the SHA-1 hasher cannot fail, so that error path is left out.
- Protocol.HonestSession: assumes that every quote in the store has no `#`, no trailing white space and no newline, and that the client's address has no `#` and no newline. A quote that breaks this does not reach the client whole. A newline cuts it there (`Messages.DecodeCutReply`). Everything after a `#` is dropped (`Messages.DecodeKeepsSecondField`). Trailing white space is trimmed (`Messages.DecodeTypeField`). An address with `#` or a newline breaks the challenge's line the same way.
- Protocol.Serving: the client's reads are cut at the first newline. Each line the client writes reaches the server whole, which holds for the honest client's lines because they hold no newline before their end.

## Findings

| source | as written | input that shows it | evidently intended | confidence | as-written member | corrected member |
|---|---|---|---|---|---|---|
| internal/server/server.go:191-194 | A stamp whose key is not in the pool gets "client not found", and the handler then goes on to the expiry, digest and store checks. | The client opens a connection and, without asking for a task, sends a stamp it made itself: its own address, 1 zero, the current date, and a counter it found. The reply is "client not found" followed by a quote. A solved stamp replayed after its entry was consumed is treated the same way. | Return after writing "client not found", as the sender-mismatch branch does at lines 186-189. Then only stamps whose key the pool holds can earn wisdom, and each key only once. | not executed | Protocol.ForgedStampObtainsWisdom | Server.RespondWisdomChecked |

`Server.ReplayReleasesWisdom` states the written behaviour for any stamp
missing from the pool. For the corrected handler:

- `Server.RespondWisdomChecked` states when it releases wisdom;
- `Server.CheckedRejectsReplay` proves that a second submission of the same stamp is refused;
- `Server.CheckedAgreesWhenIssued` and `Protocol.AnswerToSolution` prove that it answers every honest session exactly as the written handler does.

`Server.HandleMessages` follows the code, so it calls the written handler.

=== FILE: cache.dfy ===
/**
 `cache.Cache`, the wisdom store the server draws from: quotes under integer
 keys. The random draw of `GetRandom` is a parameter `pick`, and Go's map
 iteration order is a parameter `order`, any enumeration of the keys;
 `NewCache` shows that ascending key order is one.
 */
module Cache {

  type Store = map<int, string>

  /** `Cache.Set`. */
  function Set(c: Store, key: int, value: string): (r: Store)
    ensures key in r && r[key] == value
    ensures forall k :: k != key ==> (k in r <==> k in c) && (k in r ==> r[k] == c[k])
  {
    c[key := value]
  }

  /** `Cache.Get`: the value and whether the key is present; `""` when absent. */
  function Get(c: Store, key: int): (r: (string, bool))
    ensures r.1 <==> key in c
    ensures r.1 ==> r.0 == c[key]
    ensures !r.1 ==> r.0 == ""
  {
    if key in c then (c[key], true) else ("", false)
  }

  /** `NewCache`: the i-th quote under key i. */
  method NewCache(data: seq<string>) returns (c: Store)
    ensures forall i :: 0 <= i < |data| ==> i in c && c[i] == data[i]
    ensures forall k :: k in c ==> 0 <= k < |data|
    ensures IsEnumeration(Indices(|data|), c)
  {
    c := map[];
    var i := 0;
    while i < |data|
      invariant 0 <= i <= |data|
      invariant forall j :: 0 <= j < i ==> j in c && c[j] == data[j]
      invariant forall k :: k in c ==> 0 <= k < i
      invariant |c| == i
    {
      c := Set(c, i, data[i]);
      i := i + 1;
    }
    var order := Indices(|data|);
    forall k | k in c
      ensures k in order
    {
      assert order[k] == k;
    }
  }

  /**
   `order` lists every key of `c` exactly once: the order in which Go's
   `range` over the map visits its keys, which the language leaves open.
   */
  ghost predicate IsEnumeration(order: seq<int>, c: Store) {
    |order| == |c| && forall k :: k in c <==> k in order
  }

  /**
   `Cache.GetRandom`: `("", false)` on an empty store, otherwise the quote
   under the key at position `pick % |order|` of the iteration order, where
   `pick` stands for `rand.Intn`'s draw.
   */
  function GetRandom(c: Store, order: seq<int>, pick: nat): (r: (string, bool))
    requires IsEnumeration(order, c)
    ensures r.1 <==> |c| > 0
    ensures !r.1 ==> r.0 == ""
    ensures r.1 ==> r.0 in c.Values
  {
    if |c| == 0 then ("", false)
    else
      var k := order[pick % |order|];
      (c[k], true)
  }

  /** Every quote in the store is returned for some draw. */
  lemma GetRandomReachesAll(c: Store, order: seq<int>, k: int)
    requires IsEnumeration(order, c) && k in c
    ensures exists pick: nat :: GetRandom(c, order, pick) == (c[k], true)
  {
    var i :| 0 <= i < |order| && order[i] == k;
    ModOfSmaller(i, |order|);
    assert GetRandom(c, order, i) == (c[k], true);
  }

  lemma ModOfSmaller(i: nat, n: nat)
    requires i < n
    ensures i % n == i
  {
  }

  /** The keys `0, 1, ..., n - 1` in ascending order. */
  function Indices(n: nat): (order: seq<int>)
    ensures |order| == n
    ensures forall i :: 0 <= i < n ==> order[i] == i
  {
    seq(n, i => i)
  }
}

=== FILE: client.dfy ===
/**
 The client side of the exchange (`GetWisdom`, `request`,
 `validateResponse`): ask for a challenge, solve it, send the solution and
 return the payload of the server's answer. The connection is a parameter:
 given every line written so far, it yields the line read back, or the I/O
 error the write or the read ran into.
 */
module Client {
  import opened Wrappers
  import opened GoStrings
  import opened GoStrconv
  import opened Foreign
  import opened Messages
  import opened Hashcash

  datatype IoError = WriteFailed | ReadFailed

  /** Why `GetWisdom` gave up. */
  datatype ClientError =
    | Io(cause: IoError)
    | BadResponse(decodeError: DecodeError)
    | ServerReported(text: string)
    | IncorrectResponseMessageType
    | BadChallenge(reason: HashCashError)
    | SolveFailed(reason: HashCashError)

  /** The server as the client sees it: the reply to the lines written so far. */
  type Connection = seq<string> -> Result<string, IoError>

  /** The lines a run wrote, and what it returned. */
  datatype Exchange = Exchange(sent: seq<string>, result: Result<string, ClientError>)

  /** The reply type that answers a request type. */
  predicate Answers(requestType: Int8, responseType: Int8) {
    || (requestType == RequestTask && responseType == ResponseTask)
    || (requestType == RequestWisdom && responseType == ResponseWisdom)
  }

  /**
   `validateResponse`: an `Error` reply hands its text back as the error;
   any reply other than the one answering the request is refused.
   */
  function ValidateResponse(requestType: Int8, response: Message): (r: Outcome<ClientError>)
    ensures r.Pass? <==> Answers(requestType, response.typ)
    ensures response.typ == MessageError ==> r == Fail(ServerReported(response.payload))
    ensures r.Fail? && response.typ != MessageError ==> r == Fail(IncorrectResponseMessageType)
  {
    if response.typ == MessageError then Fail(ServerReported(response.payload))
    else if response.typ == ResponseTask then
      if requestType != RequestTask then Fail(IncorrectResponseMessageType) else Pass
    else if response.typ == ResponseWisdom then
      if requestType != RequestWisdom then Fail(IncorrectResponseMessageType) else Pass
    else Fail(IncorrectResponseMessageType)
  }

  /**
   `request`: write the encoded message, read one line back, decode it and
   check that it answers the request; the result is the reply's payload.
   */
  function Request(conn: Connection, sent: seq<string>, msg: Message): (e: Exchange)
    ensures e.sent == sent + [Encode(msg)]
    ensures e.result.Success? <==>
      && conn(e.sent).Success?
      && Decode(conn(e.sent).value).Success?
      && Answers(msg.typ, Decode(conn(e.sent).value).value.typ)
    ensures e.result.Success? ==> e.result.value == Decode(conn(e.sent).value).value.payload
    ensures conn(e.sent).Failure? ==> e.result == Failure(Io(conn(e.sent).error))
  {
    var wrote := sent + [Encode(msg)];
    match conn(wrote)
    case Failure(io) => Exchange(wrote, Failure(Io(io)))
    case Success(raw) =>
      match Decode(raw)
      case Failure(d) => Exchange(wrote, Failure(BadResponse(d)))
      case Success(response) =>
        match ValidateResponse(msg.typ, response)
        case Fail(err) => Exchange(wrote, Failure(err))
        case Pass => Exchange(wrote, Success(response.payload))
  }

  /**
   `GetWisdom`: request a task, parse the challenge, search up to `maxTries`
   for a counter that solves it, and send the solved stamp as a wisdom
   request.
   */
  function GetWisdom(f: Foreign, conn: Connection, maxTries: int): (e: Exchange)
    ensures 1 <= |e.sent| <= 2
    ensures e.sent[0] == Encode(NewTaskRequest())
    ensures e.result.Success? ==> |e.sent| == 2
  {
    var task := Request(conn, [], NewTaskRequest());
    if task.result.Failure? then task
    else match Parse(f, task.result.value)
      case Failure(err) => Exchange(task.sent, Failure(BadChallenge(err)))
      case Success(hc) =>
        var solved := Calculate(f, hc, maxTries);
        if solved.outcome.Fail? then Exchange(task.sent, Failure(SolveFailed(solved.outcome.error)))
        else Request(conn, task.sent, Message(RequestWisdom, String(f, solved.hc)))
  }

  /** The challenge the first exchange brought back, when it parsed. */
  function Challenge(f: Foreign, conn: Connection): (r: Option<HashCash>)
    ensures r.Some? ==> 0 < r.value.zeroBits
  {
    var task := Request(conn, [], NewTaskRequest());
    if task.result.Success? && Parse(f, task.result.value).Success?
    then Some(Parse(f, task.result.value).value)
    else None
  }

  /**
   Each way `GetWisdom` can stop before its second request: the task
   exchange failing, the challenge not parsing, or the search failing.
   */
  lemma GetWisdomStops(f: Foreign, conn: Connection, maxTries: int)
    ensures var task := Request(conn, [], NewTaskRequest());
      task.result.Failure? ==> GetWisdom(f, conn, maxTries) == task
    ensures var task := Request(conn, [], NewTaskRequest());
      task.result.Success? && Parse(f, task.result.value).Failure? ==>
        GetWisdom(f, conn, maxTries) == Exchange(task.sent, Failure(BadChallenge(Parse(f, task.result.value).error)))
    ensures Challenge(f, conn).Some? && Calculate(f, Challenge(f, conn).value, maxTries).outcome.Fail? ==>
      GetWisdom(f, conn, maxTries)
        == Exchange([Encode(NewTaskRequest())], Failure(SolveFailed(Calculate(f, Challenge(f, conn).value, maxTries).outcome.error)))
  {
  }

  /**
   The second request is written exactly when the challenge parsed and the
   search found a counter; it carries the solved stamp.
   */
  lemma GetWisdomSendsSolution(f: Foreign, conn: Connection, maxTries: int)
    ensures |GetWisdom(f, conn, maxTries).sent| == 2 <==>
      Challenge(f, conn).Some? && Calculate(f, Challenge(f, conn).value, maxTries).outcome.Pass?
    ensures |GetWisdom(f, conn, maxTries).sent| == 2 ==>
      GetWisdom(f, conn, maxTries).sent[1]
        == Encode(Message(RequestWisdom, String(f, Calculate(f, Challenge(f, conn).value, maxTries).hc)))
  {
    var task := Request(conn, [], NewTaskRequest());
    if task.result.Success? && Parse(f, task.result.value).Success? {
      var hc := Parse(f, task.result.value).value;
      assert Challenge(f, conn) == Some(hc);
      if Calculate(f, hc, maxTries).outcome.Pass? {
        GetWisdomSecondRequest(f, conn, maxTries);
      } else {
        GetWisdomStops(f, conn, maxTries);
      }
    } else {
      assert Challenge(f, conn).None?;
      GetWisdomStops(f, conn, maxTries);
    }
  }

  /** A reply that decodes to the answering type hands its payload back. */
  lemma RequestAnswered(conn: Connection, sent: seq<string>, msg: Message, reply: Message)
    requires KnownType(reply.typ) && Transparent(reply.payload) && Answers(msg.typ, reply.typ)
    requires conn(sent + [Encode(msg)]) == Success(Encode(reply))
    ensures Request(conn, sent, msg) == Exchange(sent + [Encode(msg)], Success(reply.payload))
  {
    DecodeEncode(reply);
  }

  /** Once the challenge is in hand and solved, the run ends with the second request. */
  lemma GetWisdomSecondRequest(f: Foreign, conn: Connection, maxTries: int)
    requires var task := Request(conn, [], NewTaskRequest());
      && task.result.Success?
      && Parse(f, task.result.value).Success?
      && Calculate(f, Parse(f, task.result.value).value, maxTries).outcome.Pass?
    ensures var task := Request(conn, [], NewTaskRequest());
      var solved := Calculate(f, Parse(f, task.result.value).value, maxTries).hc;
      GetWisdom(f, conn, maxTries) == Request(conn, task.sent, Message(RequestWisdom, String(f, solved)))
  {
  }

  /**
   What the client writes second is a wisdom request the server decodes and
   parses back to the solved stamp (date cut to the second, extension
   dropped), and whose digest the server's check accepts.
   */
  lemma SolutionValidates(f: Foreign, conn: Connection, maxTries: int)
    requires Lawful(f) && maxTries <= MaxInt64
    requires |GetWisdom(f, conn, maxTries).sent| == 2
    ensures var solved := Calculate(f, Challenge(f, conn).value, maxTries).hc;
      var line := GetWisdom(f, conn, maxTries).sent[1];
      && Decode(line) == Success(Message(RequestWisdom, String(f, solved)))
      && Parse(f, String(f, solved)) == Success(solved.(date := Truncate(solved.date), extension := ""))
      && Validate(f, Parse(f, String(f, solved)).value) == Success(true)
  {
    GetWisdomSendsSolution(f, conn, maxTries);
    var task := Request(conn, [], NewTaskRequest());
    var hc := Challenge(f, conn).value;
    var solved := Calculate(f, hc, maxTries).hc;
    assert FieldDelimiter !in solved.sender by {
      ParsedSenderFreeOf(f, task.result.value, FieldDelimiter);
    }
    assert Transparent(String(f, solved)) by {
      StringFreeOf(f, solved, FieldDelimiter);
      StringEndsVisible(f, solved);
    }
    DecodeEncode(Message(RequestWisdom, String(f, solved)));
    ParseString(f, solved);
    ValidateNormalized(f, solved);
  }
}

=== FILE: foreign.dfy ===
/**
 The library calls the stamp relies on but that the model does not
 implement: SHA-1 rendered as lower-case hex, standard Base64 (section 4 of
 RFC 4648), and the `20060102150405` date layout of Go's `time` package.
 They are fields of a `Foreign` value; `Lawful` lists the only facts about
 them that any proof may use. Instants are nanoseconds since the Unix epoch,
 in UTC.
 */
module Foreign {
  import opened Wrappers
  import opened GoStrconv

  newtype byte = x: int | 0 <= x < 256

  /** `time.Second` in nanoseconds. */
  const Second: int := 1_000_000_000

  /** Years 0000 to 9999, the instants the 14-digit layout can write, in whole seconds. */
  const FirstFormattableSecond: int := -62_167_219_200
  const EndFormattableSecond: int := 253_402_300_800

  /** `time.Time.Truncate(time.Second)` for an instant in UTC. */
  function Truncate(t: int): (r: int)
    ensures r % Second == 0
    ensures r <= t < r + Second
  {
    t - t % Second
  }

  predicate Formattable(t: int) {
    FirstFormattableSecond * Second <= t < EndFormattableSecond * Second
  }

  predicate IsLowerHex(c: char) {
    IsDigit(c) || 'a' <= c <= 'f'
  }

  /** What `fmt.Sprintf("%x", sha1.Sum(...))` writes: 40 lower-case hex digits. */
  predicate IsHexDigest(d: string) {
    |d| == 40 && forall i :: 0 <= i < |d| ==> IsLowerHex(d[i])
  }

  /** The standard Base64 alphabet and its padding character. */
  predicate IsBase64Char(c: char) {
    'A' <= c <= 'Z' || 'a' <= c <= 'z' || IsDigit(c) || c == '+' || c == '/' || c == '='
  }

  predicate IsBase64Text(s: string) {
    forall i :: 0 <= i < |s| ==> IsBase64Char(s[i])
  }

  /** `[]byte(s)` for a text whose characters are single bytes. */
  predicate IsByteText(s: string) {
    forall i :: 0 <= i < |s| ==> s[i] as int < 256
  }

  function TextBytes(s: string): (b: seq<byte>)
    requires IsByteText(s)
    ensures |b| == |s|
    ensures forall i :: 0 <= i < |s| ==> b[i] as int == s[i] as int
  {
    seq(|s|, i requires 0 <= i < |s| => s[i] as int as byte)
  }

  /** `string(b)`, one character per byte. */
  function BytesText(b: seq<byte>): (s: string)
    ensures |s| == |b|
    ensures forall i :: 0 <= i < |b| ==> s[i] as int == b[i] as int
  {
    seq(|b|, i requires 0 <= i < |b| => b[i] as int as char)
  }

  lemma BytesTextOfTextBytes(s: string)
    requires IsByteText(s)
    ensures BytesText(TextBytes(s)) == s
  {
  }

  datatype Foreign = Foreign(
    sha1Hex: string -> string,
    base64Encode: seq<byte> -> string,
    base64Decode: string -> Option<seq<byte>>,
    formatDate: int -> string,
    parseDate: string -> Option<int>)

  ghost predicate DigestLaw(f: Foreign) {
    forall s :: IsHexDigest(f.sha1Hex(s))
  }

  /** Decoding undoes encoding, and encoded text uses only the alphabet. */
  ghost predicate Base64Law(f: Foreign) {
    forall b :: f.base64Decode(f.base64Encode(b)) == Some(b) && IsBase64Text(f.base64Encode(b))
  }

  /**
   The layout writes 14 digits for the years it covers, reads them back as the
   whole second they name, ignores sub-second parts, and accepts only text that
   starts with 14 digits (Go also takes a fractional-second tail).
   */
  ghost predicate DateLaw(f: Foreign) {
    (forall t :: Formattable(t) ==> |f.formatDate(t)| == 14 && AllDigits(f.formatDate(t)))
    && (forall t :: Formattable(t) ==> f.parseDate(f.formatDate(t)) == Some(Truncate(t)))
    && (forall t :: f.formatDate(Truncate(t)) == f.formatDate(t))
    && (forall s :: f.parseDate(s).Some? ==> Formattable(f.parseDate(s).value) && |s| >= 14 && AllDigits(s[..14]))
  }

  ghost predicate Lawful(f: Foreign) {
    DigestLaw(f) && Base64Law(f) && DateLaw(f)
  }
}

=== FILE: gostrconv.dfy ===
/**
 Go's `strconv.Atoi` and `strconv.Itoa` on a 64-bit `int`, and the `int8`
 conversion the wire codec applies to the parsed message type.
 */
module GoStrconv {
  import opened Wrappers

  const MaxInt64: int := 0x7FFF_FFFF_FFFF_FFFF
  const MinInt64: int := -0x8000_0000_0000_0000

  predicate IsInt64(n: int) {
    MinInt64 <= n <= MaxInt64
  }

  predicate IsDigit(c: char) {
    '0' <= c <= '9'
  }

  predicate AllDigits(s: string) {
    forall i :: 0 <= i < |s| ==> IsDigit(s[i])
  }

  function DigitChar(d: nat): (c: char)
    requires d < 10
    ensures IsDigit(c)
  {
    ('0' as int + d) as char
  }

  function DigitValue(c: char): (d: nat)
    requires IsDigit(c)
    ensures d < 10 && DigitChar(d) == c
  {
    c as int - '0' as int
  }

  /** The number a non-empty run of decimal digits denotes (leading zeros allowed). */
  function DigitsValue(s: string): nat
    requires AllDigits(s)
  {
    if |s| == 0 then 0
    else DigitsValue(s[..|s| - 1]) * 10 + DigitValue(s[|s| - 1])
  }

  /** The canonical decimal digits of `n`: no leading zero except for `0` itself. */
  function Digits(n: nat): (s: string)
    ensures |s| >= 1 && AllDigits(s)
    ensures DigitsValue(s) == n
    ensures s[0] == '0' ==> n == 0
  {
    if n < 10 then [DigitChar(n)]
    else
      var s := Digits(n / 10) + [DigitChar(n % 10)];
      assert s[..|s| - 1] == Digits(n / 10);
      s
  }

  /** `strconv.Itoa`: canonical decimal text, with a leading `-` for negatives. */
  function Itoa(n: int): (s: string)
    ensures |s| >= 1
    ensures IsDigit(s[0]) || s[0] == '-'
    ensures forall i :: 1 <= i < |s| ==> IsDigit(s[i])
    ensures (s[0] == '-') <==> n < 0
    ensures s[0] == '0' ==> s == "0"
    ensures s[0] == '-' ==> |s| >= 2 && s[1] != '0'
  {
    if n < 0 then "-" + Digits(-n) else Digits(n)
  }

  /**
   `strconv.Atoi`: an optional `+` or `-`, then one or more decimal digits,
   denoting a value that fits a 64-bit `int`; anything else is an error.
   */
  function Atoi(s: string): (r: Option<int>)
    ensures r.Some? ==> IsInt64(r.value)
    ensures r.Some? ==> |s| >= 1 && (IsDigit(s[0]) || s[0] == '+' || s[0] == '-')
    ensures r.Some? && IsDigit(s[0]) ==> AllDigits(s) && r.value == DigitsValue(s)
    ensures |s| >= 1 && AllDigits(s) && IsInt64(DigitsValue(s)) ==> r == Some(DigitsValue(s))
    ensures |s| >= 2 && s[0] == '+' && AllDigits(s[1..]) && IsInt64(DigitsValue(s[1..]))
            ==> r == Some(DigitsValue(s[1..]))
    ensures |s| >= 2 && s[0] == '-' && AllDigits(s[1..]) && IsInt64(-(DigitsValue(s[1..]) as int))
            ==> r == Some(-(DigitsValue(s[1..]) as int))
    ensures r.Some? && !IsDigit(s[0]) ==>
      |s| >= 2 && AllDigits(s[1..]) && r.value == (if s[0] == '-' then -(DigitsValue(s[1..]) as int) else DigitsValue(s[1..]) as int)
  {
    if |s| == 0 then None
    else
      var negative := s[0] == '-';
      var body := if s[0] == '-' || s[0] == '+' then s[1..] else s;
      if |body| == 0 || !AllDigits(body) then None
      else
        var magnitude: int := DigitsValue(body);
        var n := if negative then -magnitude else magnitude;
        if IsInt64(n) then Some(n) else None
  }

  /** Go's conversion of an `int` to `int8`: keep the low eight bits, two's complement. */
  function ToInt8(n: int): (r: int)
    ensures -128 <= r < 128
    ensures (n - r) % 256 == 0
  {
    var low := n % 256;
    if low >= 128 then low - 256 else low
  }

  /** `Atoi` reads back every `int` that `Itoa` writes. */
  lemma AtoiItoa(n: int)
    requires IsInt64(n)
    ensures Atoi(Itoa(n)) == Some(n)
  {
    if n < 0 {
      assert Itoa(n)[1..] == Digits(-n);
    }
  }

  /** Values already in the `int8` range survive the conversion unchanged. */
  lemma ToInt8Identity(n: int)
    requires -128 <= n < 128
    ensures ToInt8(n) == n
  {
  }

  /** Examples the wire codec and the stamp parser depend on. */
  lemma AtoiExamples()
    ensures Atoi("") == None
    ensures Atoi("+") == None
    ensures Atoi("w") == None
    ensures Atoi("-1") == Some(-1)
    ensures Atoi("+7") == Some(7)
    ensures Atoi("257") == Some(257)
    ensures Atoi("05") == Some(5)
    ensures Atoi("-0") == Some(0)
  {
    assert DigitsValue("25") == 25 by { assert "25"[..1] == "2"; }
    assert "257"[..2] == "25";
    assert "-1"[1..] == "1";
    assert "+7"[1..] == "7";
  }

}

=== FILE: gostrings.dfy ===
/**
 The parts of Go's `strings` package the gateway relies on: `TrimSpace`,
 `Split` with a one-character separator, and `Join`.
 */
module GoStrings {

  /** `unicode.IsSpace`: the Unicode White_Space characters Go trims. */
  predicate IsSpace(c: char) {
    c == '\t' || c == '\n' || c == '\U{B}' || c == '\U{C}' || c == '\r' || c == ' '
    || c == '\U{85}' || c == '\U{A0}' || c == '\U{1680}'
    || ('\U{2000}' <= c <= '\U{200A}')
    || c == '\U{2028}' || c == '\U{2029}' || c == '\U{202F}' || c == '\U{205F}' || c == '\U{3000}'
  }

  predicate AllSpace(s: string) {
    forall i :: 0 <= i < |s| ==> IsSpace(s[i])
  }

  /** Neither end of `s` is white space (the empty string qualifies). */
  predicate Trimmed(s: string) {
    |s| == 0 || (!IsSpace(s[0]) && !IsSpace(s[|s| - 1]))
  }

  function TrimLeft(s: string): (r: string)
    ensures |r| <= |s|
  {
    if |s| > 0 && IsSpace(s[0]) then TrimLeft(s[1..]) else s
  }

  function TrimRight(s: string): (r: string)
    ensures |r| <= |s|
  {
    if |s| > 0 && IsSpace(s[|s| - 1]) then TrimRight(s[..|s| - 1]) else s
  }

  /** `TrimLeft` drops a leading run of white space and stops at a non-space. */
  lemma {:induction false} TrimLeftSlice(s: string)
    ensures TrimLeft(s) == s[|s| - |TrimLeft(s)|..]
    ensures AllSpace(s[..|s| - |TrimLeft(s)|])
    ensures |TrimLeft(s)| == 0 || !IsSpace(TrimLeft(s)[0])
    decreases |s|
  {
    if |s| > 0 && IsSpace(s[0]) {
      var t := s[1..];
      TrimLeftSlice(t);
      var n := |t| - |TrimLeft(t)|;
      assert s[n + 1..] == t[n..];
      assert s[..n + 1] == [s[0]] + t[..n];
    }
  }

  /** `TrimRight` drops a trailing run of white space and stops at a non-space. */
  lemma {:induction false} TrimRightSlice(s: string)
    ensures TrimRight(s) == s[..|TrimRight(s)|]
    ensures AllSpace(s[|TrimRight(s)|..])
    ensures |TrimRight(s)| == 0 || !IsSpace(TrimRight(s)[|TrimRight(s)| - 1])
    decreases |s|
  {
    if |s| > 0 && IsSpace(s[|s| - 1]) {
      var t := s[..|s| - 1];
      TrimRightSlice(t);
      var n := |TrimRight(t)|;
      assert s[..n] == t[..n];
      assert s[n..] == t[n..] + [s[|s| - 1]];
    }
  }

  /**
   `strings.TrimSpace`: the slice of `s` left after removing every leading and
   trailing white-space character.
   */
  function TrimSpace(s: string): (r: string)
    ensures Trimmed(r)
    ensures exists i, j :: 0 <= i <= j <= |s| && r == s[i..j] && AllSpace(s[..i]) && AllSpace(s[j..])
  {
    var l := TrimLeft(s);
    var r := TrimRight(l);
    TrimLeftSlice(s);
    TrimRightSlice(l);
    var i := |s| - |l|;
    var j := i + |r|;
    assert r == s[i..j] && AllSpace(s[..i]) by {
      assert l == s[i..];
    }
    assert AllSpace(s[j..]) by {
      assert s[j..] == l[|r|..];
    }
    r
  }

  lemma {:induction false} TrimLeftAllSpace(w: string, x: string)
    requires AllSpace(w)
    ensures TrimLeft(w + x) == TrimLeft(x)
    decreases |w|
  {
    if |w| > 0 {
      assert (w + x)[1..] == w[1..] + x;
      TrimLeftAllSpace(w[1..], x);
    } else {
      assert w + x == x;
    }
  }

  lemma {:induction false} TrimRightAllSpace(x: string, w: string)
    requires AllSpace(w)
    ensures TrimRight(x + w) == TrimRight(x)
    decreases |w|
  {
    if |w| > 0 {
      assert (x + w)[..|x + w| - 1] == x + w[..|w| - 1];
      TrimRightAllSpace(x, w[..|w| - 1]);
    } else {
      assert x + w == x;
    }
  }

  /** Trimming the left end of `x + y` stops inside `x` when `x` holds a non-space. */
  lemma {:induction false} TrimLeftStopsEarly(x: string, y: string)
    requires !AllSpace(x)
    ensures TrimLeft(x + y) == TrimLeft(x) + y
    decreases |x|
  {
    if IsSpace(x[0]) {
      assert (x + y)[1..] == x[1..] + y;
      TrimLeftStopsEarly(x[1..], y);
    }
  }

  /** Trimming the right end of `x + y` stops inside `y` when `y` holds a non-space. */
  lemma {:induction false} TrimRightStopsEarly(x: string, y: string)
    requires !AllSpace(y)
    ensures TrimRight(x + y) == x + TrimRight(y)
    decreases |y|
  {
    if IsSpace(y[|y| - 1]) {
      assert (x + y)[..|x + y| - 1] == x + y[..|y| - 1];
      TrimRightStopsEarly(x, y[..|y| - 1]);
    }
  }

  lemma TrimLeftOfSpace(w: string)
    requires AllSpace(w)
    ensures TrimLeft(w) == ""
  {
    TrimLeftAllSpace(w, "");
    assert w + "" == w;
  }

  /** White space around a text never changes what `TrimSpace` returns. */
  lemma TrimSpaceAbsorbs(w1: string, s: string, w2: string)
    requires AllSpace(w1) && AllSpace(w2)
    ensures TrimSpace(w1 + s + w2) == TrimSpace(s)
  {
    assert w1 + s + w2 == w1 + (s + w2);
    TrimLeftAllSpace(w1, s + w2);
    if AllSpace(s) {
      assert AllSpace(s + w2);
      TrimLeftOfSpace(s + w2);
      TrimLeftOfSpace(s);
    } else {
      TrimLeftStopsEarly(s, w2);
      TrimRightAllSpace(TrimLeft(s), w2);
    }
  }

  /** A text that starts with a non-space keeps its start; only its right end is trimmed. */
  lemma TrimSpaceFromNonSpace(x: string, y: string)
    requires |x| > 0 && !IsSpace(x[0]) && !AllSpace(y)
    ensures TrimSpace(x + y) == x + TrimRight(y)
  {
    assert !AllSpace(x);
    TrimLeftStopsEarly(x, y);
    TrimRightStopsEarly(x, y);
  }

  /** A text starting with a non-space loses only its trailing white space. */
  lemma TrimSpaceFromStart(s: string)
    requires |s| > 0 && !IsSpace(s[0])
    ensures TrimSpace(s) == TrimRight(s)
  {
  }

  /** Right-trimming stops at the last non-space character `c`. */
  lemma {:induction false} TrimRightThrough(x: string, c: char, y: string)
    requires !IsSpace(c)
    ensures TrimRight(x + [c] + y) == x + [c] + TrimRight(y)
    decreases |y|
  {
    var s := x + [c] + y;
    if |y| == 0 {
      assert s == x + [c];
    } else if IsSpace(y[|y| - 1]) {
      assert s[..|s| - 1] == x + [c] + y[..|y| - 1];
      TrimRightThrough(x, c, y[..|y| - 1]);
    }
  }

  /** A text with no white space at either end is its own trimming. */
  lemma TrimSpaceOfTrimmed(s: string)
    requires Trimmed(s)
    ensures TrimSpace(s) == s
  {
  }

  /**
   `strings.Split(s, string(sep))`: the pieces of `s` between occurrences of
   `sep`; the empty string gives one empty piece. Read one character at a
   time: a separator starts a new piece, any other character joins the
   first piece of the rest.
   */
  function Split(s: string, sep: char): (parts: seq<string>)
    ensures |parts| >= 1
    decreases |s|
  {
    if |s| == 0 then [""]
    else
      var rest := Split(s[1..], sep);
      if s[0] == sep then [""] + rest else [[s[0]] + rest[0]] + rest[1..]
  }

  /** `strings.Join(parts, string(sep))`. */
  function Join(parts: seq<string>, sep: char): string
  {
    if |parts| == 0 then ""
    else if |parts| == 1 then parts[0]
    else parts[0] + [sep] + Join(parts[1..], sep)
  }

  lemma {:induction false} SplitWithoutSeparator(s: string, sep: char)
    requires sep !in s
    ensures Split(s, sep) == [s]
    decreases |s|
  {
    if |s| > 0 {
      assert sep !in s[1..] by {
        assert forall k :: 0 <= k < |s[1..]| ==> s[1..][k] == s[k + 1];
      }
      SplitWithoutSeparator(s[1..], sep);
      assert s == [s[0]] + s[1..];
    }
  }

  /** An occurrence of the separator cuts the pieces of both sides apart. */
  lemma {:induction false} SplitAround(x: string, sep: char, y: string)
    ensures Split(x + [sep] + y, sep) == Split(x, sep) + Split(y, sep)
    decreases |x|
  {
    var s := x + [sep] + y;
    var q := Split(y, sep);
    if |x| == 0 {
      assert Split(s, sep) == [""] + q by {
        assert s[0] == sep && s[1..] == y;
      }
    } else {
      var p := Split(x[1..], sep);
      assert Split(s[1..], sep) == p + q by {
        assert s[1..] == x[1..] + [sep] + y;
        SplitAround(x[1..], sep, y);
      }
      assert s[0] == x[0];
      if x[0] == sep {
        assert [""] + (p + q) == [""] + p + q;
      } else {
        assert [[x[0]] + (p + q)[0]] + (p + q)[1..] == [[x[0]] + p[0]] + p[1..] + q by {
          assert (p + q)[0] == p[0];
          assert (p + q)[1..] == p[1..] + q;
        }
      }
    }
  }

  /** No piece of a split holds the separator. */
  lemma {:induction false} SplitPiecesFree(s: string, sep: char)
    ensures forall k :: 0 <= k < |Split(s, sep)| ==> sep !in Split(s, sep)[k]
    decreases |s|
  {
    if |s| > 0 {
      SplitPiecesFree(s[1..], sep);
      var rest := Split(s[1..], sep);
      var parts := Split(s, sep);
      if s[0] == sep {
        assert forall k :: 1 <= k < |parts| ==> parts[k] == rest[k - 1];
      } else {
        assert sep !in parts[0] by {
          assert parts[0] == [s[0]] + rest[0];
        }
        assert forall k :: 1 <= k < |parts| ==> parts[k] == rest[k];
      }
    }
  }

  /** A character other than the separator that `s` lacks is in none of its pieces. */
  lemma {:induction false} SplitKeepsOut(s: string, sep: char, c: char)
    requires c != sep && c !in s
    ensures forall k :: 0 <= k < |Split(s, sep)| ==> c !in Split(s, sep)[k]
    decreases |s|
  {
    if |s| > 0 {
      assert c !in s[1..] by {
        assert forall k :: 0 <= k < |s[1..]| ==> s[1..][k] == s[k + 1];
      }
      SplitKeepsOut(s[1..], sep, c);
      var rest := Split(s[1..], sep);
      var parts := Split(s, sep);
      if s[0] == sep {
        assert forall k :: 1 <= k < |parts| ==> parts[k] == rest[k - 1];
      } else {
        assert c !in parts[0] by {
          assert parts[0] == [s[0]] + rest[0];
        }
        assert forall k :: 1 <= k < |parts| ==> parts[k] == rest[k];
      }
    }
  }

  /** Joining pieces that lack `c` with a separator other than `c` gives a text without `c`. */
  lemma {:induction false} JoinKeepsOut(parts: seq<string>, sep: char, c: char)
    requires c != sep && forall k :: 0 <= k < |parts| ==> c !in parts[k]
    ensures c !in Join(parts, sep)
    decreases |parts|
  {
    if |parts| > 1 {
      assert forall k :: 0 <= k < |parts[1..]| ==> parts[1..][k] == parts[k + 1];
      JoinKeepsOut(parts[1..], sep, c);
    }
  }

  /** Prefixing the first piece with `c` prefixes the joined text with `c`. */
  lemma JoinPrefixFirst(c: char, parts: seq<string>, sep: char)
    requires |parts| >= 1
    ensures Join([[c] + parts[0]] + parts[1..], sep) == [c] + Join(parts, sep)
  {
    var q := [[c] + parts[0]] + parts[1..];
    if |parts| > 1 {
      assert q[1..] == parts[1..];
      assert [c] + parts[0] + [sep] + Join(parts[1..], sep) == [c] + (parts[0] + [sep] + Join(parts[1..], sep));
    }
  }

  /** Joining the pieces of a split gives the original text back. */
  lemma {:induction false} JoinSplit(s: string, sep: char)
    ensures Join(Split(s, sep), sep) == s
    decreases |s|
  {
    if |s| > 0 {
      JoinSplit(s[1..], sep);
      var rest := Split(s[1..], sep);
      if s[0] == sep {
        assert ([""] + rest)[1..] == rest;
      } else {
        JoinPrefixFirst(s[0], rest, sep);
      }
      assert s == [s[0]] + s[1..];
    }
  }
}

=== FILE: hashcash.dfy ===
/**
 The Hashcash version-1 stamp `1:bits:date:resource:ext:rand:counter`:
 issuing a challenge, writing and reading its text form, checking the
 leading zeros of its SHA-1 digest, and the bounded search for a counter
 that produces them. `zeroBits` counts leading hex characters of the digest,
 not bits.
 */
module Hashcash {
  import opened Wrappers
  import opened GoStrings
  import opened GoStrconv
  import opened Foreign

  const Version: string := "1"
  const Delimiter: char := ':'
  const ZeroDigit: char := '0'

  /** `math.MaxInt32`, the exclusive bound of the random nonce. */
  const MaxInt32: int := 0x7FFF_FFFF

  /** A stamp; `date` is an instant in nanoseconds, `nonce` the random seed's bytes. */
  datatype HashCash = HashCash(
    zeroBits: int,
    date: int,
    sender: string,
    extension: string,
    nonce: seq<byte>,
    counter: int)

  datatype HashCashError =
    | IncorrectHeaderFormat
    | IncorrectVersion
    | ZeroBitsMustBeNumber
    | ZeroBitsMustBeMoreThanZero
    | IncorrectDate
    | ReadCounter
    | CounterMustBePositiveNumber
    | ReadRandomSeed
    | HashLengthLessThanZeroBits
    | MaxTriesExceeded
    | RandomSourceFailed

  /** The number a big-endian byte string denotes. */
  function BigEndianValue(b: seq<byte>): nat {
    if |b| == 0 then 0 else BigEndianValue(b[..|b| - 1]) * 256 + b[|b| - 1] as nat
  }

  /** `big.Int.Bytes`: the shortest big-endian bytes of `n` (none for zero). */
  function NonceBytes(n: nat): (b: seq<byte>)
    ensures BigEndianValue(b) == n
    ensures |b| == 0 <==> n == 0
    ensures |b| > 0 ==> b[0] != 0
  {
    if n == 0 then []
    else
      var b := NonceBytes(n / 256) + [(n % 256) as byte];
      assert b[..|b| - 1] == NonceBytes(n / 256);
      b
  }

  /**
   `NewHashCash`: `now` is the clock reading and `draw` the outcome of
   `rand.Int(rand.Reader, MaxInt32)`, `None` when the random source fails.
   */
  function NewHashCash(zeroBits: int, sender: string, now: int, draw: Option<nat>): (r: Result<HashCash, HashCashError>)
    ensures r.Failure? <==> zeroBits <= 0 || draw.None?
    ensures zeroBits <= 0 ==> r == Failure(ZeroBitsMustBeMoreThanZero)
    ensures zeroBits > 0 && draw.None? ==> r == Failure(RandomSourceFailed)
    ensures r.Success? ==>
      && r.value.zeroBits == zeroBits
      && r.value.sender == sender
      && r.value.extension == ""
      && r.value.counter == 0
      && r.value.date % Second == 0 && r.value.date <= now < r.value.date + Second
      && BigEndianValue(r.value.nonce) == draw.value
  {
    if zeroBits <= 0 then Failure(ZeroBitsMustBeMoreThanZero)
    else match draw
      case None => Failure(RandomSourceFailed)
      case Some(n) => Success(HashCash(zeroBits, Truncate(now), sender, "", NonceBytes(n), 0))
  }

  /** Seven fields joined by the delimiter, in stamp order. */
  function Fields(version: string, bits: string, date: string, sender: string,
                  extension: string, nonce: string, counter: string): string
  {
    version + [Delimiter] + bits + [Delimiter] + date + [Delimiter] + sender
    + [Delimiter] + extension + [Delimiter] + nonce + [Delimiter] + counter
  }

  /** The counter field's payload: the ASCII bytes of its decimal text. */
  function CounterBytes(counter: int): seq<byte> {
    assert IsByteText(Itoa(counter));
    TextBytes(Itoa(counter))
  }

  /** `HashCash.String`; the extension slot is always written empty. */
  function String(f: Foreign, h: HashCash): string {
    Fields(Version, Itoa(h.zeroBits), f.formatDate(h.date), h.sender, "",
           f.base64Encode(h.nonce), f.base64Encode(CounterBytes(h.counter)))
  }

  /** `HashCash.Hash`: the hex SHA-1 digest of the text form. */
  function Hash(f: Foreign, h: HashCash): string {
    f.sha1Hex(String(f, h))
  }

  /** `NewHashCashFromString`. */
  function Parse(f: Foreign, data: string): (r: Result<HashCash, HashCashError>)
    ensures r.Success? ==> 0 < r.value.zeroBits <= MaxInt64 && 0 <= r.value.counter <= MaxInt64
    ensures r.Success? ==> Formattable(r.value.date) || !DateLaw(f)
  {
    ParseParts(f, Split(data, Delimiter))
  }

  /** The checks of `NewHashCashFromString` on the `:`-separated fields. */
  function ParseParts(f: Foreign, parts: seq<string>): (r: Result<HashCash, HashCashError>)
    ensures r.Success? ==> 0 < r.value.zeroBits <= MaxInt64 && 0 <= r.value.counter <= MaxInt64
    ensures r.Success? ==> Formattable(r.value.date) || !DateLaw(f)
  {
    var n := |parts|;
    if n < 7 then Failure(IncorrectHeaderFormat)
    else if parts[0] != Version then Failure(IncorrectVersion)
    else match Atoi(parts[1])
      case None => Failure(ZeroBitsMustBeNumber)
      case Some(bits) =>
        if bits <= 0 then Failure(ZeroBitsMustBeMoreThanZero)
        else match f.parseDate(parts[2])
          case None => Failure(IncorrectDate)
          case Some(date) =>
            match f.base64Decode(parts[n - 1])
            case None => Failure(ReadCounter)
            case Some(counterBytes) =>
              match Atoi(BytesText(counterBytes))
              case None => Failure(CounterMustBePositiveNumber)
              case Some(counter) =>
                if counter < 0 then Failure(CounterMustBePositiveNumber)
                else match f.base64Decode(parts[n - 2])
                  case None => Failure(ReadRandomSeed)
                  case Some(seed) =>
                    Success(HashCash(bits, date, Join(parts[3..n - 3], Delimiter), parts[n - 3], seed, counter))
  }

  /** All characters of `s` are the zero digit. */
  function AllZero(s: string): (b: bool)
    ensures b <==> forall i :: 0 <= i < |s| ==> s[i] == ZeroDigit
  {
    if |s| == 0 then true else s[0] == ZeroDigit && AllZero(s[1..])
  }

  /**
   `HashCash.Validate`: an error when the digest is shorter than `zeroBits`,
   otherwise whether the digest starts with `zeroBits` zero characters.
   */
  function Validate(f: Foreign, h: HashCash): (r: Result<bool, HashCashError>)
    requires h.zeroBits >= 0
    ensures r.Failure? <==> |Hash(f, h)| < h.zeroBits
    ensures r.Failure? ==> r.error == HashLengthLessThanZeroBits
    ensures r.Success? ==> (r.value <==> forall i :: 0 <= i < h.zeroBits ==> Hash(f, h)[i] == ZeroDigit)
  {
    var hash := Hash(f, h);
    if |hash| < h.zeroBits then Failure(HashLengthLessThanZeroBits)
    else Success(AllZero(hash[..h.zeroBits]))
  }

  /** `HashCash.CheckSender`. */
  predicate CheckSender(h: HashCash, clientID: string) {
    h.sender == clientID
  }

  /** `HashCash.Expired`: the stamp date plus `ttl` lies strictly before `now`. */
  predicate Expired(h: HashCash, ttl: int, now: int) {
    h.date + ttl < now
  }

  /** Where a counter search stopped and how it ended. */
  datatype Solved = Solved(hc: HashCash, outcome: Outcome<HashCashError>)

  /** The loop of `HashCash.Calculate`, from the stamp's current counter upward. */
  function CalculateFrom(f: Foreign, h: HashCash, maxTries: int): (r: Solved)
    requires h.zeroBits >= 0
    ensures r.hc == h.(counter := r.hc.counter)
    ensures h.counter <= r.hc.counter
    decreases if h.counter <= maxTries then maxTries + 1 - h.counter else 0
  {
    if h.counter > maxTries then Solved(h, Fail(MaxTriesExceeded))
    else match Validate(f, h)
      case Failure(e) => Solved(h, Fail(e))
      case Success(ok) =>
        if ok then Solved(h, Pass)
        else CalculateFrom(f, h.(counter := h.counter + 1), maxTries)
  }

  /**
   The counter search stops at the first counter from `h.counter` on whose
   digest validates or cannot be judged, or just past `maxTries`; every
   counter it passes over is rejected.
   */
  lemma {:induction false} CalculateFromFinds(f: Foreign, h: HashCash, maxTries: int)
    requires h.zeroBits >= 0
    ensures var r := CalculateFrom(f, h, maxTries);
      && (forall c :: h.counter <= c < r.hc.counter ==> Validate(f, h.(counter := c)) == Success(false))
      && (r.outcome.Pass? ==> r.hc.counter <= maxTries && Validate(f, r.hc) == Success(true))
      && (r.outcome == Fail(MaxTriesExceeded) ==>
            r.hc.counter == if h.counter <= maxTries then maxTries + 1 else h.counter)
      && (r.outcome.Fail? && r.outcome.error != MaxTriesExceeded ==>
            r.hc.counter <= maxTries && Validate(f, r.hc) == Failure(r.outcome.error))
    decreases if h.counter <= maxTries then maxTries + 1 - h.counter else 0
  {
    if h.counter <= maxTries && Validate(f, h) == Success(false) {
      var next := h.(counter := h.counter + 1);
      CalculateFromFinds(f, next, maxTries);
      var r := CalculateFrom(f, next, maxTries);
      assert CalculateFrom(f, h, maxTries) == r;
      forall c | h.counter <= c < r.hc.counter
        ensures Validate(f, h.(counter := c)) == Success(false)
      {
        if c > h.counter {
          assert h.(counter := c) == next.(counter := c);
        } else {
          assert h.(counter := c) == h;
        }
      }
    }
  }

  /**
   `HashCash.Calculate`: with a positive budget, the first counter in
   `0..maxTries` whose digest validates; otherwise `MaxTriesExceeded`.
   */
  function Calculate(f: Foreign, h: HashCash, maxTries: int): (r: Solved)
    requires h.zeroBits >= 0
    ensures r.hc == h.(counter := r.hc.counter)
    ensures maxTries <= 0 ==> r == Solved(h, Fail(MaxTriesExceeded))
    ensures r.outcome.Pass? ==>
      && 0 <= r.hc.counter <= maxTries
      && Validate(f, r.hc) == Success(true)
      && forall c :: 0 <= c < r.hc.counter ==> Validate(f, h.(counter := c)) == Success(false)
    ensures maxTries > 0 && r.outcome == Fail(MaxTriesExceeded) ==>
      && r.hc.counter == maxTries + 1
      && forall c :: 0 <= c <= maxTries ==> Validate(f, h.(counter := c)) == Success(false)
    ensures r.outcome.Fail? && r.outcome.error != MaxTriesExceeded ==>
      Validate(f, r.hc) == Failure(r.outcome.error)
  {
    if maxTries > 0 then
      var start := h.(counter := 0);
      CalculateFromFinds(f, start, maxTries);
      var r := CalculateFrom(f, start, maxTries);
      assert forall c :: start.(counter := c) == h.(counter := c);
      r
    else Solved(h, Fail(MaxTriesExceeded))
  }

  // ---------------------------------------------------------------------
  // The parse cascade, stated check by check.
  // ---------------------------------------------------------------------

  /** Whether the text `data` fails the check that reports `e`, judged on its own. */
  predicate Violates(f: Foreign, data: string, e: HashCashError) {
    var parts := Split(data, Delimiter);
    var n := |parts|;
    match e
    case IncorrectHeaderFormat => n < 7
    case IncorrectVersion => parts[0] != Version
    case ZeroBitsMustBeNumber => n >= 2 && Atoi(parts[1]).None?
    case ZeroBitsMustBeMoreThanZero => n >= 2 && Atoi(parts[1]).Some? && Atoi(parts[1]).value <= 0
    case IncorrectDate => n >= 3 && f.parseDate(parts[2]).None?
    case ReadCounter => f.base64Decode(parts[n - 1]).None?
    case CounterMustBePositiveNumber =>
      (match f.base64Decode(parts[n - 1])
       case None => false
       case Some(b) => Atoi(BytesText(b)).None? || Atoi(BytesText(b)).value < 0)
    case ReadRandomSeed => n >= 2 && f.base64Decode(parts[n - 2]).None?
    case HashLengthLessThanZeroBits => false
    case MaxTriesExceeded => false
    case RandomSourceFailed => false
  }

  /** The order in which the parser applies its checks. */
  function Rank(e: HashCashError): nat {
    match e
    case IncorrectHeaderFormat => 0
    case IncorrectVersion => 1
    case ZeroBitsMustBeNumber => 2
    case ZeroBitsMustBeMoreThanZero => 3
    case IncorrectDate => 4
    case ReadCounter => 5
    case CounterMustBePositiveNumber => 6
    case ReadRandomSeed => 7
    case HashLengthLessThanZeroBits => 8
    case MaxTriesExceeded => 8
    case RandomSourceFailed => 8
  }

  /**
   The parser fails exactly when some check fails, and then it reports the
   earliest failing check: header, version, bits number, bits sign, date,
   counter Base64, counter number, nonce Base64.
   */
  lemma ParseReportsFirstViolation(f: Foreign, data: string)
    ensures Parse(f, data).Failure? <==> exists e :: Violates(f, data, e)
    ensures Parse(f, data).Failure? ==>
      && Violates(f, data, Parse(f, data).error)
      && forall e :: Violates(f, data, e) ==> Rank(Parse(f, data).error) <= Rank(e)
  {
    var r := Parse(f, data);
    if r.Failure? {
      assert Violates(f, data, r.error);
      forall e | Violates(f, data, e)
        ensures Rank(r.error) <= Rank(e)
      {
      }
    } else {
      forall e
        ensures !Violates(f, data, e)
      {
      }
    }
  }

  // ---------------------------------------------------------------------
  // Round trip of the text form.
  // ---------------------------------------------------------------------

  /** The six delimiters of a stamp separate its fields; only the sender may hold more. */
  lemma SplitFields(version: string, bits: string, date: string, sender: string,
                    extension: string, nonce: string, counter: string)
    requires Delimiter !in version && Delimiter !in bits && Delimiter !in date
    requires Delimiter !in extension && Delimiter !in nonce && Delimiter !in counter
    ensures Split(Fields(version, bits, date, sender, extension, nonce, counter), Delimiter)
         == [version, bits, date] + Split(sender, Delimiter) + [extension, nonce, counter]
  {
    var s := Split(sender, Delimiter);
    var x1 := version + [Delimiter] + bits;
    var x2 := x1 + [Delimiter] + date;
    var x3 := x2 + [Delimiter] + sender;
    var x4 := x3 + [Delimiter] + extension;
    var x5 := x4 + [Delimiter] + nonce;
    assert Split(x1, Delimiter) == [version, bits] by {
      SplitAround(version, Delimiter, bits);
      SplitWithoutSeparator(version, Delimiter);
      SplitWithoutSeparator(bits, Delimiter);
    }
    assert Split(x2, Delimiter) == [version, bits, date] by {
      SplitAround(x1, Delimiter, date);
      SplitWithoutSeparator(date, Delimiter);
    }
    assert Split(x3, Delimiter) == [version, bits, date] + s by {
      SplitAround(x2, Delimiter, sender);
    }
    assert Split(x4, Delimiter) == [version, bits, date] + s + [extension] by {
      SplitAround(x3, Delimiter, extension);
      SplitWithoutSeparator(extension, Delimiter);
    }
    assert Split(x5, Delimiter) == [version, bits, date] + s + [extension, nonce] by {
      SplitAround(x4, Delimiter, nonce);
      SplitWithoutSeparator(nonce, Delimiter);
    }
    SplitAround(x5, Delimiter, counter);
    SplitWithoutSeparator(counter, Delimiter);
  }

  /** How the parser reads a text already cut into the seven stamp fields. */
  lemma ParseFields(f: Foreign, bits: string, date: string, sender: string,
                    extension: string, nonce: string, counter: string)
    requires Delimiter !in bits && Delimiter !in date
    requires Delimiter !in extension && Delimiter !in nonce && Delimiter !in counter
    requires Atoi(bits).Some? && Atoi(bits).value > 0
    requires f.parseDate(date).Some?
    requires f.base64Decode(counter).Some?
    requires Atoi(BytesText(f.base64Decode(counter).value)).Some?
    requires Atoi(BytesText(f.base64Decode(counter).value)).value >= 0
    requires f.base64Decode(nonce).Some?
    ensures Parse(f, Fields(Version, bits, date, sender, extension, nonce, counter))
         == Success(HashCash(Atoi(bits).value, f.parseDate(date).value, sender, extension,
                             f.base64Decode(nonce).value, Atoi(BytesText(f.base64Decode(counter).value)).value))
  {
    var s := Split(sender, Delimiter);
    var parts := [Version, bits, date] + s + [extension, nonce, counter];
    var n := |parts|;
    assert Split(Fields(Version, bits, date, sender, extension, nonce, counter), Delimiter) == parts by {
      SplitFields(Version, bits, date, sender, extension, nonce, counter);
    }
    assert parts[3..n - 3] == s;
    JoinSplit(sender, Delimiter);
    ParseWellFormed(f, parts);
  }

  /** Parts that pass every check become a stamp, the sender rejoined from the middle parts. */
  lemma ParseWellFormed(f: Foreign, parts: seq<string>)
    requires |parts| >= 7 && parts[0] == Version
    requires Atoi(parts[1]).Some? && Atoi(parts[1]).value > 0
    requires f.parseDate(parts[2]).Some?
    requires f.base64Decode(parts[|parts| - 1]).Some?
    requires Atoi(BytesText(f.base64Decode(parts[|parts| - 1]).value)).Some?
    requires Atoi(BytesText(f.base64Decode(parts[|parts| - 1]).value)).value >= 0
    requires f.base64Decode(parts[|parts| - 2]).Some?
    ensures ParseParts(f, parts)
         == Success(HashCash(Atoi(parts[1]).value, f.parseDate(parts[2]).value,
                             Join(parts[3..|parts| - 3], Delimiter), parts[|parts| - 3],
                             f.base64Decode(parts[|parts| - 2]).value,
                             Atoi(BytesText(f.base64Decode(parts[|parts| - 1]).value)).value))
  {
  }

  lemma NoDelimiterInBase64(s: string)
    requires IsBase64Text(s)
    ensures Delimiter !in s
  {
  }

  /**
   Parsing the text form of a stamp gives the stamp back, with its date cut
   to whole seconds and an empty extension, whatever colons its sender holds.
   */
  lemma ParseString(f: Foreign, h: HashCash)
    requires Lawful(f)
    requires 0 < h.zeroBits <= MaxInt64 && 0 <= h.counter <= MaxInt64
    requires Formattable(h.date)
    ensures Parse(f, String(f, h)) == Success(h.(date := Truncate(h.date), extension := ""))
  {
    var bits := Itoa(h.zeroBits);
    var date := f.formatDate(h.date);
    var nonce := f.base64Encode(h.nonce);
    var counter := f.base64Encode(CounterBytes(h.counter));
    assert Delimiter !in bits;
    assert Delimiter !in date by {
      assert AllDigits(date);
    }
    NoDelimiterInBase64(nonce);
    NoDelimiterInBase64(counter);
    AtoiItoa(h.zeroBits);
    AtoiItoa(h.counter);
    assert BytesText(CounterBytes(h.counter)) == Itoa(h.counter) by {
      BytesTextOfTextBytes(Itoa(h.counter));
    }
    ParseFields(f, bits, date, h.sender, "", nonce, counter);
  }

  /** Reading a stamp and writing it again reproduces the text it came from. */
  lemma StringParseString(f: Foreign, h: HashCash)
    requires Lawful(f)
    requires 0 < h.zeroBits <= MaxInt64 && 0 <= h.counter <= MaxInt64
    requires Formattable(h.date)
    ensures Parse(f, String(f, h)).Success?
    ensures String(f, Parse(f, String(f, h)).value) == String(f, h)
  {
    ParseString(f, h);
  }

  /** The text form sees the date only to the second, and never the extension. */
  lemma StringOfNormalized(f: Foreign, h: HashCash)
    requires DateLaw(f)
    ensures String(f, h.(date := Truncate(h.date), extension := "")) == String(f, h)
  {
  }

  /** So a stamp and its parsed-back form validate alike. */
  lemma ValidateNormalized(f: Foreign, h: HashCash)
    requires DateLaw(f) && h.zeroBits >= 0
    ensures Validate(f, h.(date := Truncate(h.date), extension := "")) == Validate(f, h)
  {
    StringOfNormalized(f, h);
  }

  /** The sender of a parsed stamp is the text between the date and the extension fields. */
  lemma ParseSender(f: Foreign, data: string)
    requires Parse(f, data).Success?
    ensures var parts := Split(data, Delimiter);
      |parts| >= 7 && Parse(f, data).value.sender == Join(parts[3..|parts| - 3], Delimiter)
  {
  }

  /** A freshly issued stamp survives the text form unchanged. */
  lemma ParseIssued(f: Foreign, zeroBits: int, sender: string, now: int, draw: Option<nat>)
    requires Lawful(f)
    requires NewHashCash(zeroBits, sender, now, draw).Success?
    requires zeroBits <= MaxInt64 && Formattable(now)
    ensures Parse(f, String(f, NewHashCash(zeroBits, sender, now, draw).value))
         == NewHashCash(zeroBits, sender, now, draw)
  {
    var h := NewHashCash(zeroBits, sender, now, draw).value;
    ParseString(f, h);
  }

  /** The sample stamp of the parser's tests, cut at its delimiters. */
  lemma SampleHead(head: string)
    requires head == "1:5:20240928110000:127.0.0.1:5040"
    ensures head == Version + [Delimiter] + "5" + [Delimiter] + "20240928110000" + [Delimiter] + "127.0.0.1:5040"
  {
    var x1 := Version + [Delimiter] + "5";
    assert x1 == "1:5";
    var x2 := x1 + [Delimiter] + "20240928110000";
    assert x2 == "1:5:20240928110000";
    var x3 := x2 + [Delimiter] + "127.0.0.1:5040";
    assert x3 == head;
  }

  lemma SampleFields(data: string)
    requires data == "1:5:20240928110000:127.0.0.1:5040::YI2Pdg==:MA=="
    ensures data == Fields(Version, "5", "20240928110000", "127.0.0.1:5040", "", "YI2Pdg==", "MA==")
  {
    var x3 := "1:5:20240928110000:127.0.0.1:5040";
    SampleHead(x3);
    var x4 := x3 + [Delimiter] + "";
    assert x4 == "1:5:20240928110000:127.0.0.1:5040:";
    var x5 := x4 + [Delimiter] + "YI2Pdg==";
    assert x5 == "1:5:20240928110000:127.0.0.1:5040::YI2Pdg==";
    var x6 := x5 + [Delimiter] + "MA==";
    assert x6 == "1:5:20240928110000:127.0.0.1:5040::YI2Pdg==:MA==";
  }

  /**
   The sample stamp `1:5:20240928110000:127.0.0.1:5040::YI2Pdg==:MA==` carries
   5 zeros, counter 0 and the sender `127.0.0.1:5040`, colon included, given
   what the date layout and Base64 make of its fields.
   */
  lemma ParseSample(f: Foreign, data: string)
    requires data == "1:5:20240928110000:127.0.0.1:5040::YI2Pdg==:MA=="
    requires f.parseDate("20240928110000").Some?
    requires f.base64Decode("YI2Pdg==").Some?
    requires f.base64Decode("MA==") == Some([48])
    ensures Parse(f, data).Success?
    ensures Parse(f, data).value.zeroBits == 5
    ensures Parse(f, data).value.sender == "127.0.0.1:5040"
    ensures Parse(f, data).value.extension == ""
    ensures Parse(f, data).value.counter == 0
  {
    SampleFields(data);
    var date := f.parseDate("20240928110000").value;
    var seed := f.base64Decode("YI2Pdg==").value;
    assert Parse(f, data) == Success(HashCash(5, date, "127.0.0.1:5040", "", seed, 0)) by {
      assert Atoi("5") == Some(5);
      assert BytesText([48]) == "0" by {
        var t := BytesText([48]);
        assert |t| == 1 && t[0] as int == 48;
      }
      assert Atoi("0") == Some(0);
      ParseFields(f, "5", "20240928110000", "127.0.0.1:5040", "", "YI2Pdg==", "MA==");
    }
  }

  // ---------------------------------------------------------------------
  // Digest checks and the counter search.
  // ---------------------------------------------------------------------

  /** With a lawful digest, `Validate` fails exactly when more than 40 zeros are asked for. */
  lemma ValidateLawful(f: Foreign, h: HashCash)
    requires Lawful(f) && h.zeroBits >= 0
    ensures Validate(f, h).Failure? <==> h.zeroBits > 40
  {
  }

  /**
   With a lawful digest and at most 40 zeros asked for, the search succeeds
   exactly when some counter in `0..maxTries` validates.
   */
  lemma CalculateSucceedsIff(f: Foreign, h: HashCash, maxTries: int)
    requires Lawful(f) && 0 <= h.zeroBits <= 40
    ensures Calculate(f, h, maxTries).outcome.Pass?
        <==> maxTries > 0 && exists c :: 0 <= c <= maxTries && Validate(f, h.(counter := c)) == Success(true)
  {
    var r := Calculate(f, h, maxTries);
    ValidateLawful(f, r.hc);
    if !r.outcome.Pass? && maxTries > 0 {
      assert r.outcome == Fail(MaxTriesExceeded);
      forall c | 0 <= c <= maxTries
        ensures Validate(f, h.(counter := c)) != Success(true)
      {
      }
    }
  }

  /** The search never depends on the counter the stamp held before. */
  lemma CalculateIgnoresCounter(f: Foreign, h: HashCash, counter: int, maxTries: int)
    requires h.zeroBits >= 0 && maxTries > 0
    ensures Calculate(f, h.(counter := counter), maxTries) == Calculate(f, h, maxTries)
  {
    assert h.(counter := counter).(counter := 0) == h.(counter := 0);
  }

  /**
   The sender check gives the same answer before and after the counter
   search: solving a challenge never changes whom it was issued to.
   */
  lemma SolvedKeepsSender(f: Foreign, h: HashCash, maxTries: int, clientID: string)
    requires h.zeroBits >= 0
    ensures CheckSender(Calculate(f, h, maxTries).hc, clientID) <==> CheckSender(h, clientID)
  {
  }

  /** Expiry only ever switches on as time passes. */
  lemma ExpiredMonotone(h: HashCash, ttl: int, now: int, later: int)
    requires now <= later && Expired(h, ttl, now)
    ensures Expired(h, ttl, later)
  {
  }

  /**
   A stamp issued at `now` is unexpired at that instant exactly when `ttl`
   covers the sub-second part that truncating the date dropped.
   */
  lemma IssuedExpiry(zeroBits: int, sender: string, now: int, draw: Option<nat>, ttl: int)
    requires NewHashCash(zeroBits, sender, now, draw).Success?
    ensures !Expired(NewHashCash(zeroBits, sender, now, draw).value, ttl, now) <==> now % Second <= ttl
  {
  }

  // ---------------------------------------------------------------------
  // Which characters the text form can hold.
  // ---------------------------------------------------------------------

  /**
   The seven fields joined by `:` hold a character other than `:` only if
   one of the fields does: the layout adds nothing but delimiters.
   */
  lemma FieldsFree(c: char, version: string, bits: string, date: string, sender: string,
                   extension: string, nonce: string, counter: string)
    requires c != Delimiter && c !in version && c !in bits && c !in date && c !in sender
    requires c !in extension && c !in nonce && c !in counter
    ensures c !in Fields(version, bits, date, sender, extension, nonce, counter)
  {
  }

  /**
   A character that is neither `:`, `-` nor in the Base64 alphabet enters
   the text form of a stamp only through its sender.
   */
  lemma StringFreeOf(f: Foreign, h: HashCash, c: char)
    requires Lawful(f) && Formattable(h.date)
    requires c != Delimiter && c != '-' && !IsBase64Char(c) && c !in h.sender
    ensures c !in String(f, h)
  {
    var bits := Itoa(h.zeroBits);
    var date := f.formatDate(h.date);
    var nonce := f.base64Encode(h.nonce);
    var counter := f.base64Encode(CounterBytes(h.counter));
    assert c !in bits by {
      assert forall i :: 0 <= i < |bits| ==> IsDigit(bits[i]) || bits[i] == '-';
    }
    assert c !in date by {
      assert AllDigits(date);
    }
    assert c !in nonce && c !in counter by {
      assert IsBase64Text(nonce) && IsBase64Text(counter);
    }
    FieldsFree(c, Version, bits, date, h.sender, "", nonce, counter);
  }

  /** A stamp's text form never ends in white space: it ends in Base64 or `:`. */
  lemma StringEndsVisible(f: Foreign, h: HashCash)
    requires Lawful(f)
    ensures !IsSpace(String(f, h)[|String(f, h)| - 1])
  {
    var counter := f.base64Encode(CounterBytes(h.counter));
    assert IsBase64Text(counter);
    var head := Version + [Delimiter] + Itoa(h.zeroBits) + [Delimiter] + f.formatDate(h.date)
      + [Delimiter] + h.sender + [Delimiter] + "" + [Delimiter] + f.base64Encode(h.nonce);
    var s := head + [Delimiter] + counter;
    assert String(f, h) == s;
    if |counter| > 0 {
      assert s[|s| - 1] == counter[|counter| - 1];
    } else {
      assert s[|s| - 1] == Delimiter;
    }
  }

  /** A character other than `:` that a text lacks is not in the sender parsed from it. */
  lemma ParsedSenderFreeOf(f: Foreign, data: string, c: char)
    requires c != Delimiter && c !in data && Parse(f, data).Success?
    ensures c !in Parse(f, data).value.sender
  {
    ParseSender(f, data);
    var parts := Split(data, Delimiter);
    SplitKeepsOut(data, Delimiter, c);
    var middle := parts[3..|parts| - 3];
    assert forall k :: 0 <= k < |middle| ==> middle[k] == parts[k + 3];
    JoinKeepsOut(middle, Delimiter, c);
  }
}

=== FILE: message.dfy ===
/**
 The wire codec: one typed message per line, written `<type>#<payload>\n`
 with no escaping, and read back by trimming, splitting on `#`, parsing the
 type as an `int` and narrowing it to `int8`.
 */
module Messages {
  import opened Wrappers
  import opened GoStrings
  import opened GoStrconv

  /** Go's `int8`, the underlying type of `MessageType`. */
  newtype Int8 = x: int | -128 <= x < 128

  const MessageError: Int8 := 0
  const RequestTask: Int8 := 1
  const ResponseTask: Int8 := 2
  const RequestWisdom: Int8 := 3
  const ResponseWisdom: Int8 := 4

  const FieldDelimiter: char := '#'
  const EndDelimiter: char := '\n'

  datatype Message = Message(typ: Int8, payload: string)

  datatype DecodeError = IncorrectMessageFormat

  /** One of the five message types the decoder accepts. */
  predicate KnownType(t: Int8) {
    MessageError <= t <= ResponseWisdom
  }

  /** A payload the codec carries unchanged: no delimiter, no trailing white space. */
  predicate Transparent(payload: string) {
    FieldDelimiter !in payload && (|payload| == 0 || !IsSpace(payload[|payload| - 1]))
  }

  /** `Message.String`: the decimal type, `#`, the payload and a newline. */
  function Encode(m: Message): (e: string)
    ensures |e| >= 3 && e[|e| - 1] == EndDelimiter && FieldDelimiter in e
    ensures EndDelimiter !in m.payload ==> EndDelimiter !in e[..|e| - 1]
  {
    var d := Itoa(m.typ as int);
    assert EndDelimiter !in d by {
      assert forall i :: 0 <= i < |d| ==> IsDigit(d[i]) || d[i] == '-';
    }
    assert (d + [FieldDelimiter] + m.payload + [EndDelimiter])[..|d| + 1 + |m.payload|]
        == d + [FieldDelimiter] + m.payload;
    d + [FieldDelimiter] + m.payload + [EndDelimiter]
  }

  /** `NewMessageFromString`. */
  function Decode(s: string): (r: Result<Message, DecodeError>)
    ensures r.Success? ==> KnownType(r.value.typ) && FieldDelimiter !in r.value.payload
  {
    var parts := Split(TrimSpace(s), FieldDelimiter);
    SplitPiecesFree(TrimSpace(s), FieldDelimiter);
    DecodeFields(parts)
  }

  /** The checks `NewMessageFromString` applies to the `#`-separated fields of the trimmed line. */
  function DecodeFields(parts: seq<string>): (r: Result<Message, DecodeError>)
    ensures r.Success? ==> KnownType(r.value.typ) && |parts| >= 2 && r.value.payload == parts[1]
  {
    if |parts| < 2 then Failure(IncorrectMessageFormat)
    else
      match Atoi(parts[0])
      case None => Failure(IncorrectMessageFormat)
      case Some(n) =>
        var t := ToInt8(n);
        if MessageError as int <= t <= ResponseWisdom as int then
          Success(Message(t as Int8, parts[1]))
        else
          Failure(IncorrectMessageFormat)
  }

  /** `NewTaskRequest`: a task request with an empty payload, on the wire `1#\n`. */
  function NewTaskRequest(): (m: Message)
    ensures m.typ == RequestTask && m.payload == ""
  {
    Message(RequestTask, "")
  }

  /** On the wire a task request is the three characters `1#\n`. */
  lemma TaskRequestLine(line: string)
    requires line == Encode(NewTaskRequest())
    ensures line == "1#\n"
  {
  }

  lemma EncodeKnownType(t: Int8)
    requires KnownType(t)
    ensures Itoa(t as int) == [DigitChar(t as nat)]
  {
  }

  /** The field checks accept a known type followed by any payload. */
  lemma DecodeFieldsKnown(t: Int8, parts: seq<string>)
    requires KnownType(t) && |parts| >= 2 && parts[0] == Itoa(t as int)
    ensures DecodeFields(parts) == Success(Message(t, parts[1]))
  {
    EncodeKnownType(t);
    AtoiItoa(t as int);
    ToInt8Identity(t as int);
  }

  /**
   Decoding an encoded message gives it back whenever its type is one of the
   five known ones and its payload survives framing.
   */
  lemma DecodeEncode(m: Message)
    requires KnownType(m.typ)
    requires Transparent(m.payload)
    ensures Decode(Encode(m)) == Success(m)
  {
    EncodedFields(m);
    DecodeFieldsKnown(m.typ, [Itoa(m.typ as int), m.payload]);
  }

  /** The trimmed text of an encoded message splits into its type and its payload. */
  lemma EncodedFields(m: Message)
    requires KnownType(m.typ)
    requires Transparent(m.payload)
    ensures Split(TrimSpace(Encode(m)), FieldDelimiter) == [Itoa(m.typ as int), m.payload]
  {
    var d := Itoa(m.typ as int);
    EncodeKnownType(m.typ);
    var body := d + [FieldDelimiter] + m.payload;
    assert TrimSpace(Encode(m)) == body by {
      TrimSpaceFromStart(Encode(m));
      TrimRightAllSpace(body, [EndDelimiter]);
    }
    SplitAround(d, FieldDelimiter, m.payload);
    SplitWithoutSeparator(d, FieldDelimiter);
    SplitWithoutSeparator(m.payload, FieldDelimiter);
  }

  /**
   What `bufio.Reader.ReadString(EndDelimiter)` returns when the text waiting
   on the connection is `s`: everything up to and including the first end
   delimiter, or all of `s` when it holds none (Go then also reports
   `io.EOF`; the model only reads encoded messages, which always end in the
   delimiter).
   */
  function ReadLine(s: string): (line: string)
    ensures |line| <= |s| && line == s[..|line|]
    ensures forall i :: 0 <= i < |line| - 1 ==> line[i] != EndDelimiter
    ensures EndDelimiter in s ==> |line| > 0 && line[|line| - 1] == EndDelimiter
    ensures EndDelimiter !in s ==> line == s
    decreases |s|
  {
    if |s| == 0 then ""
    else if s[0] == EndDelimiter then [s[0]]
    else [s[0]] + ReadLine(s[1..])
  }

  /** Reading a line stops at the first end delimiter, whatever follows it. */
  lemma {:induction false} ReadLineThrough(a: string, rest: string)
    requires EndDelimiter !in a
    ensures ReadLine(a + [EndDelimiter] + rest) == a + [EndDelimiter]
    decreases |a|
  {
    var s := a + [EndDelimiter] + rest;
    if |a| > 0 {
      assert s[1..] == a[1..] + [EndDelimiter] + rest;
      ReadLineThrough(a[1..], rest);
      assert s[0] == a[0];
      assert a == [a[0]] + a[1..];
    } else {
      assert s[0] == EndDelimiter;
    }
  }

  /** An encoded message whose payload holds no newline is read back whole. */
  lemma ReadLineFramed(m: Message)
    requires EndDelimiter !in m.payload
    ensures ReadLine(Encode(m)) == Encode(m)
  {
    var d := Itoa(m.typ as int);
    assert EndDelimiter !in d by {
      assert forall i :: 0 <= i < |d| ==> IsDigit(d[i]) || d[i] == '-';
    }
    var head := d + [FieldDelimiter] + m.payload;
    ReadLineThrough(head, "");
    assert head + [EndDelimiter] + "" == Encode(m);
  }

  /**
   A payload with a newline inside is cut there: the line read back is the
   encoding of the message carrying only the text before the newline.
   */
  lemma ReadLineCutsPayload(t: Int8, a: string, b: string)
    requires EndDelimiter !in a
    ensures ReadLine(Encode(Message(t, a + [EndDelimiter] + b))) == Encode(Message(t, a))
  {
    var d := Itoa(t as int);
    assert EndDelimiter !in d by {
      assert forall i :: 0 <= i < |d| ==> IsDigit(d[i]) || d[i] == '-';
    }
    var head := d + [FieldDelimiter] + a;
    EncodeAround(d, a, b);
    ReadLineThrough(head, b + [EndDelimiter]);
  }

  lemma EncodeAround(d: string, a: string, b: string)
    ensures d + [FieldDelimiter] + (a + [EndDelimiter] + b) + [EndDelimiter]
         == d + [FieldDelimiter] + a + [EndDelimiter] + (b + [EndDelimiter])
  {
    var x := d + [FieldDelimiter];
    assert x + (a + [EndDelimiter] + b) == x + a + [EndDelimiter] + b;
  }

  /**
   So a reply whose payload holds a newline decodes, on the reading side, to
   the same type with the payload's first line only.
   */
  lemma DecodeCutReply(t: Int8, a: string, b: string)
    requires KnownType(t) && Transparent(a) && EndDelimiter !in a
    ensures Decode(ReadLine(Encode(Message(t, a + [EndDelimiter] + b)))) == Success(Message(t, a))
  {
    ReadLineCutsPayload(t, a, b);
    DecodeEncode(Message(t, a));
  }

  /** White space around the whole line never changes the decoded message. */
  lemma DecodeIgnoresSurroundingSpace(w1: string, s: string, w2: string)
    requires AllSpace(w1) && AllSpace(w2)
    ensures Decode(w1 + s + w2) == Decode(s)
  {
    TrimSpaceAbsorbs(w1, s, w2);
  }

  /** A line without any `#` is rejected. */
  lemma DecodeNeedsDelimiter(s: string)
    requires FieldDelimiter !in s
    ensures Decode(s) == Failure(IncorrectMessageFormat)
  {
    var t := TrimSpace(s);
    assert FieldDelimiter !in t;
    SplitWithoutSeparator(t, FieldDelimiter);
  }

  /**
   The type field decides acceptance: it must pass `Atoi`, and the `int8`
   truncation of the parsed value must be a known type.
   */
  lemma DecodeTypeField(a: string, b: string)
    requires |a| > 0 && !IsSpace(a[0]) && FieldDelimiter !in a
    ensures Decode(a + [FieldDelimiter] + b).Success?
        <==> Atoi(a).Some? && 0 <= ToInt8(Atoi(a).value) <= 4
    ensures Decode(a + [FieldDelimiter] + b).Success?
        ==> Decode(a + [FieldDelimiter] + b).value
            == Message(ToInt8(Atoi(a).value) as Int8, Split(TrimRight(b), FieldDelimiter)[0])
  {
    var s := a + [FieldDelimiter] + b;
    var parts := Split(TrimSpace(s), FieldDelimiter);
    assert parts == [a] + Split(TrimRight(b), FieldDelimiter) by {
      TrimSpaceFromStart(s);
      TrimRightThrough(a, FieldDelimiter, b);
      SplitAround(a, FieldDelimiter, TrimRight(b));
      SplitWithoutSeparator(a, FieldDelimiter);
    }
  }

  /** Whatever follows a second `#` is dropped: the payload is the second field only. */
  lemma DecodeKeepsSecondField(t: Int8, a: string, b: string)
    requires KnownType(t) && FieldDelimiter !in a
    ensures Decode(Itoa(t as int) + [FieldDelimiter] + a + [FieldDelimiter] + b) == Success(Message(t, a))
  {
    var d := Itoa(t as int);
    EncodeKnownType(t);
    var s := d + [FieldDelimiter] + a + [FieldDelimiter] + b;
    var parts := Split(TrimSpace(s), FieldDelimiter);
    assert parts == [d] + [a] + Split(TrimRight(b), FieldDelimiter) by {
      TrimSpaceFromStart(s);
      TrimRightThrough(d + [FieldDelimiter] + a, FieldDelimiter, b);
      SplitAround(d + [FieldDelimiter] + a, FieldDelimiter, TrimRight(b));
      SplitAround(d, FieldDelimiter, a);
      SplitWithoutSeparator(d, FieldDelimiter);
      SplitWithoutSeparator(a, FieldDelimiter);
    }
    DecodeFieldsKnown(t, parts);
  }

  /** The type field is narrowed to `int8`: `257#x` is a task request. */
  lemma DecodeWrapsType(line: string)
    requires line == "257#x"
    ensures Decode(line) == Success(Message(RequestTask, "x"))
  {
    var a, b := "257", "x";
    assert line == a + [FieldDelimiter] + b;
    assert TrimRight(b) == b && Split(b, FieldDelimiter) == [b] by {
      SplitWithoutSeparator(b, FieldDelimiter);
    }
    assert Atoi(a) == Some(257) && ToInt8(257) == 1 by {
      AtoiExamples();
    }
    DecodeTypeField(a, b);
  }

  /** A parsed type outside the five known ones is rejected: `5#x`. */
  lemma DecodeRejectsUnknownType(line: string)
    requires line == "5#x"
    ensures Decode(line) == Failure(IncorrectMessageFormat)
  {
    var a, b := "5", "x";
    assert line == a + [FieldDelimiter] + b;
    assert Atoi(a) == Some(5) && ToInt8(5) == 5;
    DecodeTypeField(a, b);
  }

  /** A type field `Atoi` rejects is an error: `x#1`. */
  lemma DecodeRejectsNonNumericType(line: string)
    requires line == "x#1"
    ensures Decode(line) == Failure(IncorrectMessageFormat)
  {
    var a, b := "x", "1";
    assert line == a + [FieldDelimiter] + b;
    assert Atoi(a) == None by {
      AtoiExamples();
    }
    DecodeTypeField(a, b);
  }
}

=== FILE: pool.dfy ===
/**
 `HashCashPool`: the outstanding challenges, stored under the key each
 challenge derives for itself. `HashCash.Key` is not part of this model; it
 is a parameter, any deterministic function of the challenge.
 */
module Pool {
  import opened Wrappers
  import opened Hashcash

  type KeyFn = HashCash -> string

  type HashCashPool = map<string, HashCash>

  /** Every entry sits under its own key. */
  predicate KeyedBySelf(key: KeyFn, pool: HashCashPool) {
    forall k :: k in pool ==> key(pool[k]) == k
  }

  /** `p` and `q` agree on every key except `k`. */
  ghost predicate SameElsewhere(p: HashCashPool, q: HashCashPool, k: string) {
    forall j :: j != k ==> (j in p <==> j in q) && (j in p ==> p[j] == q[j])
  }

  /** `AddHashCash`: store `hc` under its key, replacing whatever was there. */
  function Add(key: KeyFn, pool: HashCashPool, hc: HashCash): (p: HashCashPool)
    ensures key(hc) in p && p[key(hc)] == hc
    ensures SameElsewhere(p, pool, key(hc))
  {
    pool[key(hc) := hc]
  }

  /** `RemoveHashCash`: forget the entry under the key of `hc`, if any. */
  function Remove(key: KeyFn, pool: HashCashPool, hc: HashCash): (p: HashCashPool)
    ensures key(hc) !in p
    ensures SameElsewhere(p, pool, key(hc))
  {
    pool - {key(hc)}
  }

  /** `GetHashCash`. */
  function Get(pool: HashCashPool, k: string): (r: Option<HashCash>)
    ensures r.Some? <==> k in pool
    ensures r.Some? ==> r.value == pool[k]
  {
    if k in pool then Some(pool[k]) else None
  }

  lemma GetAfterAdd(key: KeyFn, pool: HashCashPool, hc: HashCash)
    ensures Get(Add(key, pool, hc), key(hc)) == Some(hc)
  {
  }

  lemma GetAfterRemove(key: KeyFn, pool: HashCashPool, hc: HashCash)
    ensures Get(Remove(key, pool, hc), key(hc)) == None
  {
  }

  /** A later stamp with the same key supersedes the earlier one. */
  lemma AddOverwrites(key: KeyFn, pool: HashCashPool, a: HashCash, b: HashCash)
    requires key(a) == key(b)
    ensures Add(key, Add(key, pool, a), b) == Add(key, pool, b)
  {
  }

  lemma RemoveAbsent(key: KeyFn, pool: HashCashPool, hc: HashCash)
    requires key(hc) !in pool
    ensures Remove(key, pool, hc) == pool
  {
  }

  /** Adding and removing keep every entry under its own key. */
  lemma KeyedBySelfPreserved(key: KeyFn, pool: HashCashPool, hc: HashCash)
    requires KeyedBySelf(key, pool)
    ensures KeyedBySelf(key, Add(key, pool, hc))
    ensures KeyedBySelf(key, Remove(key, pool, hc))
  {
  }
}

=== FILE: protocol.dfy ===
/**
 The two sides together: a client running `GetWisdom` against a server
 running `handleMessages` on the same connection. The server's environment
 supplies, for each line it reads, the clock, the random draw and the wisdom
 draw; the client sees the server as the reply to the lines written so far.
 */
module Protocol {
  import opened Wrappers
  import opened GoStrconv
  import opened Foreign
  import opened Messages
  import opened Hashcash
  import opened Pool
  import opened Server
  import opened Client

  /** A key that names a challenge, not one attempt at it: the counter does not enter it. */
  ghost predicate IgnoresCounter(key: KeyFn) {
    forall h: HashCash, c: int :: key(h.(counter := c)) == key(h)
  }

  /**
   Every quote in the store crosses the wire unchanged: no `#`, no trailing
   white space, and no newline, at which the client's read would cut it
   (`Messages.DecodeCutReply`).
   */
  ghost predicate QuotesTransparent(env: Env) {
    forall w :: w in env.wisdom.store.Values ==> Transparent(w) && EndDelimiter !in w
  }

  /**
   What an honest exchange relies on: lawful primitives, a well-formed store,
   a counter-blind key, a remote address without `#` or a newline, a positive difficulty
   the text form can carry, and a clock and random source that work.
   */
  ghost predicate Honest(env: Env, now: int, draw: Option<nat>) {
    && Lawful(env.f)
    && WisdomValid(env)
    && IgnoresCounter(env.key)
    && FieldDelimiter !in env.clientID
    && EndDelimiter !in env.clientID
    && 0 < env.cfg.zeroBits <= MaxInt64
    && draw.Some?
    && Formattable(now)
  }

  /** The challenge `responseTask` issues at `now`. */
  function Issued(env: Env, now: int, draw: Option<nat>): (hc: HashCash)
    requires env.cfg.zeroBits > 0 && draw.Some?
    ensures hc.sender == env.clientID && hc.counter == 0 && hc.extension == ""
    ensures hc.zeroBits == env.cfg.zeroBits && hc.date == Truncate(now)
  {
    NewHashCash(env.cfg.zeroBits, env.clientID, now, draw).value
  }

  /** The line of the task request. */
  function TaskLine(): string {
    Encode(NewTaskRequest())
  }

  /** The line carrying a solved stamp. */
  function SolutionLine(f: Foreign, solved: HashCash): string {
    Encode(Message(RequestWisdom, String(f, solved)))
  }

  /**
   A stamp with a whole-second date, no extension and a sender without `#`
   crosses the wire unchanged and parses back to itself.
   */
  lemma StampCrossesWire(f: Foreign, h: HashCash)
    requires Lawful(f)
    requires 0 < h.zeroBits <= MaxInt64 && 0 <= h.counter <= MaxInt64
    requires Formattable(h.date) && h.date % Second == 0
    requires h.extension == "" && FieldDelimiter !in h.sender
    ensures Transparent(String(f, h))
    ensures Parse(f, String(f, h)) == Success(h)
  {
    ParseString(f, h);
    StringFreeOf(f, h, FieldDelimiter);
    StringEndsVisible(f, h);
    assert h.(date := Truncate(h.date), extension := "") == h;
  }

  /** The issued challenge crosses the wire and parses back to itself. */
  lemma IssuedRoundTrip(env: Env, now: int, draw: Option<nat>)
    requires Honest(env, now, draw)
    ensures var hc := Issued(env, now, draw);
      && Transparent(String(env.f, hc)) && EndDelimiter !in String(env.f, hc)
      && Parse(env.f, String(env.f, hc)) == Success(hc)
  {
    var hc := Issued(env, now, draw);
    ParseIssued(env.f, env.cfg.zeroBits, env.clientID, now, draw);
    StringFreeOf(env.f, hc, FieldDelimiter);
    StringFreeOf(env.f, hc, EndDelimiter);
    StringEndsVisible(env.f, hc);
  }

  /**
   The stamp the client's search produces differs from the challenge only in
   its counter, crosses the wire, parses back to itself, validates, and sits
   under the challenge's key.
   */
  lemma SolutionRoundTrip(env: Env, now: int, draw: Option<nat>, maxTries: int)
    requires Honest(env, now, draw) && maxTries <= MaxInt64
    requires Calculate(env.f, Issued(env, now, draw), maxTries).outcome.Pass?
    ensures var hc := Issued(env, now, draw);
      var solved := Calculate(env.f, hc, maxTries).hc;
      && solved == hc.(counter := solved.counter)
      && Transparent(String(env.f, solved))
      && Parse(env.f, String(env.f, solved)) == Success(solved)
      && Validate(env.f, solved) == Success(true)
      && env.key(solved) == env.key(hc)
  {
    var hc := Issued(env, now, draw);
    var solved := Calculate(env.f, hc, maxTries).hc;
    assert env.key(hc.(counter := solved.counter)) == env.key(hc);
    assert Formattable(hc.date) by {
      ParseIssued(env.f, env.cfg.zeroBits, env.clientID, now, draw);
    }
    StampCrossesWire(env.f, solved);
  }

  /**
   A solution of a pooled challenge, unexpired and valid, draws one message,
   the wisdom, and takes the challenge out of the pool; the handler with the
   missing `return` restored answers it the same way.
   */
  lemma AnswerToSolution(env: Env, pool: HashCashPool, hc: HashCash, solved: HashCash, later: int, pick: nat)
    requires WisdomValid(env)
    requires Parse(env.f, String(env.f, solved)) == Success(solved)
    requires CheckSender(solved, env.clientID) && env.key(solved) == env.key(hc)
    requires Accepted(env, solved, later)
    ensures var s := RespondWisdom(env, String(env.f, solved), Add(env.key, pool, hc), later, pick);
      && |s.out| == 1
      && s.out[0].typ == ResponseWisdom
      && s.out[0].payload in env.wisdom.store.Values
      && s.pool == pool - {env.key(hc)}
      && RespondWisdomChecked(env, String(env.f, solved), Add(env.key, pool, hc), later, pick) == s
  {
    var issuedPool := Add(env.key, pool, hc);
    assert issuedPool[env.key(solved)] == hc;
    CheckedAgreesWhenIssued(env, String(env.f, solved), issuedPool, later, pick);
  }

  /**
   `handleMessages` on a task request followed by a solution of the
   challenge it issued writes the challenge, then the wisdom; the pool ends
   as it began except that the challenge's key is gone.
   */
  lemma ServerGrants(env: Env, pool: HashCashPool, input: seq<Incoming>, solved: HashCash)
    requires WisdomValid(env) && env.cfg.zeroBits > 0 && |input| == 2 && input[0].draw.Some?
    requires input[0].line == TaskLine() && input[1].line == SolutionLine(env.f, solved)
    requires Transparent(String(env.f, solved))
    requires Parse(env.f, String(env.f, solved)) == Success(solved)
    requires CheckSender(solved, env.clientID)
    requires env.key(solved) == env.key(Issued(env, input[0].now, input[0].draw))
    requires Accepted(env, solved, input[1].now)
    ensures var hc := Issued(env, input[0].now, input[0].draw);
      var s := HandleMessages(env, pool, input);
      && |s.out| == 2
      && s.out[0] == Message(ResponseTask, String(env.f, hc))
      && s.out[1].typ == ResponseWisdom
      && s.out[1].payload in env.wisdom.store.Values
      && s.pool == pool - {env.key(hc)}
  {
    var hc := Issued(env, input[0].now, input[0].draw);
    DecodeEncode(NewTaskRequest());
    HandleMessagesTask(env, pool, input);
    var t := RespondTask(env, pool, input[0].now, input[0].draw);
    var rest := input[1..];
    DecodeEncode(Message(RequestWisdom, String(env.f, solved)));
    HandleMessagesWisdom(env, t.pool, rest);
    AnswerToSolution(env, pool, hc, solved, input[1].now, input[1].pick);
  }

  /**
   A client whose connection answers the task request with a challenge, and
   the solution its search finds with a quote, returns that quote, having
   written the task request and then the solution.
   */
  lemma ClientObtains(f: Foreign, conn: Connection, hc: HashCash, maxTries: int, w: string)
    requires Transparent(String(f, hc)) && Parse(f, String(f, hc)) == Success(hc)
    requires Calculate(f, hc, maxTries).outcome.Pass?
    requires conn([TaskLine()]) == Success(Encode(Message(ResponseTask, String(f, hc))))
    requires conn([TaskLine(), SolutionLine(f, Calculate(f, hc, maxTries).hc)])
          == Success(Encode(Message(ResponseWisdom, w)))
    requires Transparent(w)
    ensures GetWisdom(f, conn, maxTries)
         == Exchange([TaskLine(), SolutionLine(f, Calculate(f, hc, maxTries).hc)], Success(w))
  {
    var solved := Calculate(f, hc, maxTries).hc;
    ChallengeArrives(f, conn, hc);
    GetWisdomSecondRequest(f, conn, maxTries);
    QuoteArrives(f, conn, solved, w);
  }

  /** The client's first request returns the challenge its connection sends back. */
  lemma ChallengeArrives(f: Foreign, conn: Connection, hc: HashCash)
    requires Transparent(String(f, hc))
    requires conn([TaskLine()]) == Success(Encode(Message(ResponseTask, String(f, hc))))
    ensures Request(conn, [], NewTaskRequest()) == Exchange([TaskLine()], Success(String(f, hc)))
  {
    assert [] + [TaskLine()] == [TaskLine()];
    RequestAnswered(conn, [], NewTaskRequest(), Message(ResponseTask, String(f, hc)));
  }

  /** The client's second request returns the quote its connection sends back. */
  lemma QuoteArrives(f: Foreign, conn: Connection, solved: HashCash, w: string)
    requires Transparent(w)
    requires conn([TaskLine(), SolutionLine(f, solved)]) == Success(Encode(Message(ResponseWisdom, w)))
    ensures Request(conn, [TaskLine()], Message(RequestWisdom, String(f, solved)))
         == Exchange([TaskLine(), SolutionLine(f, solved)], Success(w))
  {
    assert [TaskLine()] + [SolutionLine(f, solved)] == [TaskLine(), SolutionLine(f, solved)];
    RequestAnswered(conn, [TaskLine()], Message(RequestWisdom, String(f, solved)), Message(ResponseWisdom, w));
  }

  /** What the server's environment supplies while it handles one line. */
  datatype Turn = Turn(now: int, draw: Option<nat>, pick: nat)

  /** The lines written so far, each with the turn the server handles it in. */
  function Feed(sent: seq<string>, turns: seq<Turn>): (input: seq<Incoming>)
    requires |sent| <= |turns|
    ensures |input| == |sent|
    ensures forall i :: 0 <= i < |sent| ==>
      input[i] == Incoming(sent[i], turns[i].now, turns[i].draw, turns[i].pick)
  {
    seq(|sent|, i requires 0 <= i < |sent| => Incoming(sent[i], turns[i].now, turns[i].draw, turns[i].pick))
  }

  /**
   The server as the client's connection: the reply to the k-th line is what
   the client's `ReadString` takes from the k-th message the server writes
   while reading those k lines, up to its first newline. A line past the
   turns, or past what the server writes, finds the connection closed. Each
   line the client writes reaches the server as one line.

   On the byte stream the k-th read meets the k-th message only while the
   earlier messages hold no newline before their end: otherwise the rest of
   such a message is what the next read takes. The honest lemmas below
   establish this for both messages of a session (`ReadLineFramed`).
   */
  ghost function Serving(env: Env, pool: HashCashPool, turns: seq<Turn>): Connection
    requires WisdomValid(env)
  {
    (sent: seq<string>) =>
      if |sent| == 0 || |sent| > |turns| then Failure(ReadFailed)
      else
        var out := HandleMessages(env, pool, Feed(sent, turns)).out;
        if |sent| <= |out| then Success(ReadLine(Encode(out[|sent| - 1]))) else Failure(ReadFailed)
  }

  /** The reply to the k-th line, read off the server's session on the first k lines. */
  lemma ServingReply(env: Env, pool: HashCashPool, turns: seq<Turn>, sent: seq<string>)
    requires WisdomValid(env) && 0 < |sent| <= |turns|
    requires |sent| <= |HandleMessages(env, pool, Feed(sent, turns)).out|
    ensures Serving(env, pool, turns)(sent)
         == Success(ReadLine(Encode(HandleMessages(env, pool, Feed(sent, turns)).out[|sent| - 1])))
  {
  }

  /** After the task request alone, the server's first message is the challenge. */
  lemma ServingChallenge(env: Env, pool: HashCashPool, turns: seq<Turn>)
    requires WisdomValid(env) && |turns| >= 1 && env.cfg.zeroBits > 0 && turns[0].draw.Some?
    ensures Serving(env, pool, turns)([TaskLine()])
         == Success(ReadLine(Encode(Message(ResponseTask, String(env.f, Issued(env, turns[0].now, turns[0].draw))))))
  {
    var input := Feed([TaskLine()], turns);
    DecodeEncode(NewTaskRequest());
    HandleMessagesTask(env, pool, input);
    ServingReply(env, pool, turns, [TaskLine()]);
  }

  /**
   After the task request and a solution of the challenge it issued, the
   server's second message is a quote from the store, and its pool has lost
   the challenge's key.
   */
  lemma ServingWisdom(env: Env, pool: HashCashPool, turns: seq<Turn>, solved: HashCash) returns (w: string)
    requires WisdomValid(env) && env.cfg.zeroBits > 0 && |turns| >= 2 && turns[0].draw.Some?
    requires Transparent(String(env.f, solved))
    requires Parse(env.f, String(env.f, solved)) == Success(solved)
    requires CheckSender(solved, env.clientID)
    requires env.key(solved) == env.key(Issued(env, turns[0].now, turns[0].draw))
    requires Accepted(env, solved, turns[1].now)
    ensures w in env.wisdom.store.Values
    ensures var sent := [TaskLine(), SolutionLine(env.f, solved)];
      && Serving(env, pool, turns)(sent) == Success(ReadLine(Encode(Message(ResponseWisdom, w))))
      && HandleMessages(env, pool, Feed(sent, turns)).pool
         == pool - {env.key(Issued(env, turns[0].now, turns[0].draw))}
  {
    var sent := [TaskLine(), SolutionLine(env.f, solved)];
    var input := Feed(sent, turns);
    ServerGrants(env, pool, input, solved);
    var s := HandleMessages(env, pool, input);
    w := s.out[1].payload;
    ServingReply(env, pool, turns, sent);
  }

  /**
   The server's side of an honest session, as the client's connection sees
   it: the challenge in reply to the task request, a quote in reply to its
   solution.
   */
  lemma HonestReplies(env: Env, pool: HashCashPool, turns: seq<Turn>, maxTries: int) returns (w: string)
    requires |turns| >= 2 && Honest(env, turns[0].now, turns[0].draw) && maxTries <= MaxInt64
    requires QuotesTransparent(env) && |env.wisdom.store| > 0
    requires Calculate(env.f, Issued(env, turns[0].now, turns[0].draw), maxTries).outcome.Pass?
    requires !Expired(Issued(env, turns[0].now, turns[0].draw), env.cfg.ttl, turns[1].now)
    ensures w in env.wisdom.store.Values && Transparent(w)
    ensures var hc := Issued(env, turns[0].now, turns[0].draw);
      var solved := Calculate(env.f, hc, maxTries).hc;
      var sent := [TaskLine(), SolutionLine(env.f, solved)];
      && Serving(env, pool, turns)([TaskLine()]) == Success(Encode(Message(ResponseTask, String(env.f, hc))))
      && Serving(env, pool, turns)(sent) == Success(Encode(Message(ResponseWisdom, w)))
      && HandleMessages(env, pool, Feed(sent, turns)).pool == pool - {env.key(hc)}
  {
    var hc := Issued(env, turns[0].now, turns[0].draw);
    var solved := Calculate(env.f, hc, maxTries).hc;
    SolutionRoundTrip(env, turns[0].now, turns[0].draw, maxTries);
    assert Accepted(env, solved, turns[1].now);
    w := ServingWisdom(env, pool, turns, solved);
    ServingChallenge(env, pool, turns);
    ReadLineFramed(Message(ResponseWisdom, w));
    IssuedRoundTrip(env, turns[0].now, turns[0].draw);
    ReadLineFramed(Message(ResponseTask, String(env.f, hc)));
  }

  /**
   An honest client meets an honest server: the client obtains a quote from
   the store, having written the task request and its solution, and the
   server's pool has lost exactly the challenge it issued.
   */
  lemma HonestSession(env: Env, pool: HashCashPool, turns: seq<Turn>, maxTries: int)
    requires |turns| >= 2 && Honest(env, turns[0].now, turns[0].draw) && maxTries <= MaxInt64
    requires QuotesTransparent(env) && |env.wisdom.store| > 0
    requires Calculate(env.f, Issued(env, turns[0].now, turns[0].draw), maxTries).outcome.Pass?
    requires !Expired(Issued(env, turns[0].now, turns[0].draw), env.cfg.ttl, turns[1].now)
    ensures var e := GetWisdom(env.f, Serving(env, pool, turns), maxTries);
      && e.result.Success?
      && e.result.value in env.wisdom.store.Values
      && HandleMessages(env, pool, Feed(e.sent, turns)).pool
         == pool - {env.key(Issued(env, turns[0].now, turns[0].draw))}
  {
    var hc := Issued(env, turns[0].now, turns[0].draw);
    IssuedRoundTrip(env, turns[0].now, turns[0].draw);
    var w := HonestReplies(env, pool, turns, maxTries);
    ClientObtains(env.f, Serving(env, pool, turns), hc, maxTries, w);
  }

  /**
   A client that never asked for a task can forge its own stamp (its own
   address, date and difficulty) and, sent as the first line of a
   connection, it draws "client not found" followed by the wisdom. The
   handler as its error list intends refuses it.
   */
  lemma ForgedStampObtainsWisdom(env: Env, pool: HashCashPool, forged: HashCash, now: int, pick: nat)
    requires Lawful(env.f) && WisdomValid(env)
    requires 0 < forged.zeroBits <= MaxInt64 && 0 <= forged.counter <= MaxInt64
    requires Formattable(forged.date) && forged.date % Second == 0
    requires forged.extension == "" && forged.sender == env.clientID && FieldDelimiter !in env.clientID
    requires env.key(forged) !in pool
    requires Accepted(env, forged, now)
    ensures var s := HandleMessages(env, pool, [Incoming(SolutionLine(env.f, forged), now, None, pick)]);
      && |s.out| == 2
      && s.out[0] == ErrorMessage(ClientNotFoundText)
      && s.out[1].typ == ResponseWisdom
      && s.pool == pool
    ensures RespondWisdomChecked(env, String(env.f, forged), pool, now, pick).out == [ErrorMessage(ClientNotFoundText)]
  {
    var input := [Incoming(SolutionLine(env.f, forged), now, None, pick)];
    StampCrossesWire(env.f, forged);
    DecodeEncode(Message(RequestWisdom, String(env.f, forged)));
    HandleMessagesWisdom(env, pool, input);
    ReplayReleasesWisdom(env, String(env.f, forged), pool, now, pick);
  }
}

=== FILE: server.dfy ===
/**
 The server side of one connection (`handleMessages`, `responseTask`,
 `responseWisdom`): a fold over the lines the client sends, writing messages
 and updating the challenge pool. The connection's remote address is
 `clientID`; the clock, the random source and the wisdom draw come with each
 line read.
 */
module Server {
  import opened Wrappers
  import opened Foreign
  import opened Messages
  import opened Hashcash
  import opened Pool
  import Cache

  const IncorrectMessageFormatText: string := "incorrect message format"
  const UnknownMessageTypeText: string := "unknown message type"
  const ClientNotFoundText: string := "client not found in task requester list"
  const HeaderNotCorrectText: string := "hashcash header not correct"
  const ExpirationExceededText: string := "hashcash expiration exceeded"
  const InternalErrorText: string := "internal error"

  /** The server's `ZeroBits` and `hashCashTTL` (in nanoseconds). */
  datatype Config = Config(zeroBits: int, ttl: int)

  /** The wisdom store and the order in which a `range` over it visits its keys. */
  datatype Wisdom = Wisdom(store: Cache.Store, order: seq<int>)

  /** What a connection handler works with besides the pool and the input. */
  datatype Env = Env(f: Foreign, key: KeyFn, cfg: Config, wisdom: Wisdom, clientID: string)

  ghost predicate WisdomValid(env: Env) {
    Cache.IsEnumeration(env.wisdom.order, env.wisdom.store)
  }

  /**
   One line read from the connection, with the clock reading, the outcome of
   the random source and the wisdom draw taken while it is handled.
   */
  datatype Incoming = Incoming(line: string, now: int, draw: Option<nat>, pick: nat)

  /** The messages written and the pool left behind. */
  datatype Step = Step(out: seq<Message>, pool: HashCashPool)

  /** `writeError`: an `Error` message carrying the reason. */
  function ErrorMessage(text: string): (m: Message)
    ensures m.typ == MessageError && m.payload == text
  {
    Message(MessageError, text)
  }

  /** The wisdom released by a run of messages: the payload of a final `ResponseWisdom`. */
  function Granted(out: seq<Message>): Option<string> {
    if |out| > 0 && out[|out| - 1].typ == ResponseWisdom then Some(out[|out| - 1].payload) else None
  }

  /** `responseTask`: issue a stamp for the client, remember it, and send it. */
  function RespondTask(env: Env, pool: HashCashPool, now: int, draw: Option<nat>): (s: Step)
    ensures |s.out| == 1
    ensures s.out[0].typ == ResponseTask <==> env.cfg.zeroBits > 0 && draw.Some?
    ensures s.out[0].typ != ResponseTask ==> s.out[0] == ErrorMessage(InternalErrorText) && s.pool == pool
    ensures s.out[0].typ == ResponseTask ==>
      var hc := NewHashCash(env.cfg.zeroBits, env.clientID, now, draw).value;
      && s.out[0].payload == String(env.f, hc)
      && s.pool == Add(env.key, pool, hc)
      && hc.sender == env.clientID && hc.counter == 0 && hc.zeroBits == env.cfg.zeroBits
  {
    match NewHashCash(env.cfg.zeroBits, env.clientID, now, draw)
    case Failure(_) => Step([ErrorMessage(InternalErrorText)], pool)
    case Success(hc) => Step([Message(ResponseTask, String(env.f, hc))], Add(env.key, pool, hc))
  }

  /** A submitted stamp passes the checks that follow the pool lookup. */
  predicate Accepted(env: Env, hc: HashCash, now: int)
    requires hc.zeroBits >= 0
  {
    !Expired(hc, env.cfg.ttl, now) && Validate(env.f, hc) == Success(true) && |env.wisdom.store| > 0
  }

  /** What `responseWisdom` writes last: expiry, then the digest, then the wisdom draw. */
  function Verdict(env: Env, hc: HashCash, now: int, pick: nat): (m: Message)
    requires hc.zeroBits >= 0 && WisdomValid(env)
    ensures m.typ == ResponseWisdom <==> Accepted(env, hc, now)
    ensures m.typ == ResponseWisdom ==> m.payload in env.wisdom.store.Values
    ensures Expired(hc, env.cfg.ttl, now) ==> m == ErrorMessage(ExpirationExceededText)
    ensures !Expired(hc, env.cfg.ttl, now) && Validate(env.f, hc) == Success(false) ==> m == ErrorMessage(HeaderNotCorrectText)
    ensures !Expired(hc, env.cfg.ttl, now) && Validate(env.f, hc).Failure? ==> m == ErrorMessage(InternalErrorText)
    ensures !Expired(hc, env.cfg.ttl, now) && Validate(env.f, hc) == Success(true) && |env.wisdom.store| == 0
            ==> m == ErrorMessage(InternalErrorText)
  {
    if Expired(hc, env.cfg.ttl, now) then ErrorMessage(ExpirationExceededText)
    else match Validate(env.f, hc)
      case Failure(_) => ErrorMessage(InternalErrorText)
      case Success(ok) =>
        if !ok then ErrorMessage(HeaderNotCorrectText)
        else
          var r := Cache.GetRandom(env.wisdom.store, env.wisdom.order, pick);
          if r.1 then Message(ResponseWisdom, r.0) else ErrorMessage(InternalErrorText)
  }

  /** The pool after the lookup: the entry found under the stamp's key is removed. */
  function Consume(key: KeyFn, pool: HashCashPool, hc: HashCash): (p: HashCashPool)
    ensures key(hc) !in pool ==> p == pool
    ensures key(hc) in pool ==> p == Remove(key, pool, pool[key(hc)])
  {
    match Get(pool, key(hc))
    case None => pool
    case Some(internal) => Remove(key, pool, internal)
  }

  /**
   `responseWisdom` as written: a stamp whose key is not in the pool draws a
   "client not found" error, and the checks then carry on.
   */
  function RespondWisdom(env: Env, payload: string, pool: HashCashPool, now: int, pick: nat): (s: Step)
    requires WisdomValid(env)
    ensures |s.out| >= 1
    ensures s.out[|s.out| - 1].typ == MessageError || s.out[|s.out| - 1].typ == ResponseWisdom
    ensures Granted(s.out).Some? <==>
      && Parse(env.f, payload).Success?
      && CheckSender(Parse(env.f, payload).value, env.clientID)
      && Accepted(env, Parse(env.f, payload).value, now)
    ensures Granted(s.out).Some? ==> Granted(s.out).value in env.wisdom.store.Values
    ensures Parse(env.f, payload).Failure? ==> s == Step([ErrorMessage(HeaderNotCorrectText)], pool)
    ensures Parse(env.f, payload).Success? && !CheckSender(Parse(env.f, payload).value, env.clientID)
            ==> s == Step([ErrorMessage(ClientNotFoundText)], pool)
    ensures Parse(env.f, payload).Success? && CheckSender(Parse(env.f, payload).value, env.clientID) ==>
      var hc := Parse(env.f, payload).value;
      && s.pool == Consume(env.key, pool, hc)
      && (env.key(hc) in pool ==> |s.out| == 1)
      && (env.key(hc) !in pool ==> |s.out| == 2 && s.out[0] == ErrorMessage(ClientNotFoundText))
  {
    match Parse(env.f, payload)
    case Failure(_) => Step([ErrorMessage(HeaderNotCorrectText)], pool)
    case Success(hc) =>
      if !CheckSender(hc, env.clientID) then Step([ErrorMessage(ClientNotFoundText)], pool)
      else
        var notFound := if env.key(hc) in pool then [] else [ErrorMessage(ClientNotFoundText)];
        Step(notFound + [Verdict(env, hc, now, pick)], Consume(env.key, pool, hc))
  }

  /** A line that decodes to a task request: the only kind that keeps the connection open. */
  predicate IsTaskRequest(line: string) {
    Decode(line).Success? && Decode(line).value.typ == RequestTask
  }

  /**
   `handleMessages`: answer task requests until a line of another kind, a
   line that does not decode, or the end of the input (a failed read).
   */
  function HandleMessages(env: Env, pool: HashCashPool, input: seq<Incoming>): (s: Step)
    requires WisdomValid(env)
    ensures |s.out| >= 1
    decreases |input|
  {
    if |input| == 0 then Step([ErrorMessage(InternalErrorText)], pool)
    else
      var ev := input[0];
      match Decode(ev.line)
      case Failure(_) => Step([ErrorMessage(IncorrectMessageFormatText)], pool)
      case Success(msg) =>
        if msg.typ == RequestTask then
          var t := RespondTask(env, pool, ev.now, ev.draw);
          var rest := HandleMessages(env, t.pool, input[1..]);
          Step(t.out + rest.out, rest.pool)
        else if msg.typ == RequestWisdom then
          RespondWisdom(env, msg.payload, pool, ev.now, ev.pick)
        else
          Step([ErrorMessage(UnknownMessageTypeText)], pool)
  }

  // ---------------------------------------------------------------------
  // Properties of a session.
  // ---------------------------------------------------------------------

  /**
   A failed read ends the session with "internal error"; a line that does not
   decode ends it with "incorrect message format"; a decoded type other than
   the two requests ends it with "unknown message type". None touches the pool.
   */
  lemma HandleMessagesErrors(env: Env, pool: HashCashPool, input: seq<Incoming>)
    requires WisdomValid(env)
    ensures |input| == 0 ==> HandleMessages(env, pool, input) == Step([ErrorMessage(InternalErrorText)], pool)
    ensures |input| > 0 && Decode(input[0].line).Failure?
            ==> HandleMessages(env, pool, input) == Step([ErrorMessage(IncorrectMessageFormatText)], pool)
    ensures |input| > 0 && Decode(input[0].line).Success?
            && Decode(input[0].line).value.typ != RequestTask
            && Decode(input[0].line).value.typ != RequestWisdom
            ==> HandleMessages(env, pool, input) == Step([ErrorMessage(UnknownMessageTypeText)], pool)
  {
  }

  /** A task request is answered and the session goes on with the rest of the input. */
  lemma HandleMessagesTask(env: Env, pool: HashCashPool, input: seq<Incoming>)
    requires WisdomValid(env) && |input| > 0 && IsTaskRequest(input[0].line)
    ensures var t := RespondTask(env, pool, input[0].now, input[0].draw);
      var rest := HandleMessages(env, t.pool, input[1..]);
      HandleMessages(env, pool, input) == Step(t.out + rest.out, rest.pool)
  {
  }

  /** The last message of a run: an error or the wisdom. */
  predicate EndsWithVerdict(out: seq<Message>) {
    |out| > 0 && (out[|out| - 1].typ == MessageError || out[|out| - 1].typ == ResponseWisdom)
  }

  /**
   Every session ends with its verdict: an error or the wisdom. Task
   responses only ever come before it.
   */
  lemma {:induction false} HandleMessagesEnds(env: Env, pool: HashCashPool, input: seq<Incoming>)
    requires WisdomValid(env)
    ensures EndsWithVerdict(HandleMessages(env, pool, input).out)
    decreases |input|
  {
    if |input| == 0 || !IsTaskRequest(input[0].line) {
      EndsOtherwise(env, pool, input);
    } else {
      var t := RespondTask(env, pool, input[0].now, input[0].draw);
      HandleMessagesEnds(env, t.pool, input[1..]);
      EndsAfterTask(env, pool, input);
    }
  }

  lemma EndsOtherwise(env: Env, pool: HashCashPool, input: seq<Incoming>)
    requires WisdomValid(env)
    requires |input| == 0 || !IsTaskRequest(input[0].line)
    ensures EndsWithVerdict(HandleMessages(env, pool, input).out)
  {
    if |input| > 0 && Decode(input[0].line).Success? && Decode(input[0].line).value.typ == RequestWisdom {
      HandleMessagesWisdom(env, pool, input);
    } else {
      HandleMessagesErrors(env, pool, input);
    }
  }

  lemma EndsAfterTask(env: Env, pool: HashCashPool, input: seq<Incoming>)
    requires WisdomValid(env) && |input| > 0 && IsTaskRequest(input[0].line)
    requires EndsWithVerdict(HandleMessages(env, RespondTask(env, pool, input[0].now, input[0].draw).pool, input[1..]).out)
    ensures EndsWithVerdict(HandleMessages(env, pool, input).out)
  {
    var t := RespondTask(env, pool, input[0].now, input[0].draw);
    var rest := HandleMessages(env, t.pool, input[1..]);
    HandleMessagesTask(env, pool, input);
    EndsWithVerdictAppend(t.out, rest.out);
  }

  lemma EndsWithVerdictAppend(a: seq<Message>, b: seq<Message>)
    requires EndsWithVerdict(b)
    ensures EndsWithVerdict(a + b)
  {
    assert (a + b)[|a + b| - 1] == b[|b| - 1];
  }

  /** A wisdom request is answered by `responseWisdom` and ends the session. */
  lemma HandleMessagesWisdom(env: Env, pool: HashCashPool, input: seq<Incoming>)
    requires WisdomValid(env) && |input| > 0
    requires Decode(input[0].line).Success? && Decode(input[0].line).value.typ == RequestWisdom
    ensures HandleMessages(env, pool, input)
         == RespondWisdom(env, Decode(input[0].line).value.payload, pool, input[0].now, input[0].pick)
  {
  }

  /** After any other first line the session is over: the rest of the input is irrelevant. */
  lemma HandleMessagesFinal(env: Env, pool: HashCashPool, a: seq<Incoming>, b: seq<Incoming>)
    requires WisdomValid(env) && |a| > 0 && |b| > 0 && a[0] == b[0] && !IsTaskRequest(a[0].line)
    ensures HandleMessages(env, pool, a) == HandleMessages(env, pool, b)
  {
  }

  /**
   Whatever follows the first line that is not a task request (at position
   `stop` or earlier) is never read.
   */
  lemma {:induction false} HandleMessagesStops(env: Env, pool: HashCashPool, input: seq<Incoming>, extra: seq<Incoming>, stop: nat)
    requires WisdomValid(env)
    requires stop < |input| && !IsTaskRequest(input[stop].line)
    ensures HandleMessages(env, pool, input + extra) == HandleMessages(env, pool, input)
    decreases stop
  {
    var whole := input + extra;
    AppendTail(input, extra);
    if !IsTaskRequest(input[0].line) {
      HandleMessagesFinal(env, pool, whole, input);
    } else {
      var rest := input[1..];
      assert stop != 0;
      var next: nat := stop - 1;
      TailIndex(input, stop);
      var t := RespondTask(env, pool, input[0].now, input[0].draw);
      var after := HandleMessages(env, t.pool, rest);
      assert HandleMessages(env, t.pool, whole[1..]) == after by {
        HandleMessagesStops(env, t.pool, rest, extra, next);
      }
      assert HandleMessages(env, pool, input) == Step(t.out + after.out, after.pool) by {
        HandleMessagesTask(env, pool, input);
      }
      assert HandleMessages(env, pool, whole) == Step(t.out + after.out, after.pool) by {
        HandleMessagesTask(env, pool, whole);
      }
    }
  }

  lemma AppendTail(input: seq<Incoming>, extra: seq<Incoming>)
    requires |input| > 0
    ensures (input + extra)[0] == input[0] && (input + extra)[1..] == input[1..] + extra
  {
  }

  lemma TailIndex(input: seq<Incoming>, stop: nat)
    requires 0 < stop < |input|
    ensures input[1..][stop - 1] == input[stop]
  {
  }

  /** Every entry of the pool stays under its own key through a whole session. */
  lemma {:induction false} HandleMessagesKeyedBySelf(env: Env, pool: HashCashPool, input: seq<Incoming>)
    requires WisdomValid(env) && KeyedBySelf(env.key, pool)
    ensures KeyedBySelf(env.key, HandleMessages(env, pool, input).pool)
    decreases |input|
  {
    if |input| > 0 && Decode(input[0].line).Success? {
      var msg := Decode(input[0].line).value;
      if msg.typ == RequestTask {
        var t := RespondTask(env, pool, input[0].now, input[0].draw);
        var issued := NewHashCash(env.cfg.zeroBits, env.clientID, input[0].now, input[0].draw);
        if issued.Success? {
          KeyedBySelfPreserved(env.key, pool, issued.value);
        }
        HandleMessagesKeyedBySelf(env, t.pool, input[1..]);
      } else if msg.typ == RequestWisdom {
        var p := Parse(env.f, msg.payload);
        if p.Success? && env.key(p.value) in pool {
          KeyedBySelfPreserved(env.key, pool, pool[env.key(p.value)]);
        }
      }
    }
  }

  /** Whether wisdom is released never depends on the pool: the lookup only adds an error line. */
  lemma RespondWisdomIgnoresPool(env: Env, payload: string, pool: HashCashPool, other: HashCashPool, now: int, pick: nat)
    requires WisdomValid(env)
    ensures Granted(RespondWisdom(env, payload, pool, now, pick).out)
         == Granted(RespondWisdom(env, payload, other, now, pick).out)
  {
  }

  /**
   A stamp the pool does not hold (never issued, or already used) still
   obtains wisdom when it is otherwise sound; the reply is the error line
   followed by the wisdom.
   */
  lemma ReplayReleasesWisdom(env: Env, payload: string, pool: HashCashPool, now: int, pick: nat)
    requires WisdomValid(env)
    requires Parse(env.f, payload).Success?
    requires CheckSender(Parse(env.f, payload).value, env.clientID)
    requires env.key(Parse(env.f, payload).value) !in pool
    requires Accepted(env, Parse(env.f, payload).value, now)
    ensures var s := RespondWisdom(env, payload, pool, now, pick);
      && |s.out| == 2
      && s.out[0] == ErrorMessage(ClientNotFoundText)
      && s.out[1].typ == ResponseWisdom
      && s.pool == pool
  {
  }

  /**
   `responseWisdom` as its error list intends: a stamp whose key is not in
   the pool is refused with "client not found" and nothing else.
   */
  function RespondWisdomChecked(env: Env, payload: string, pool: HashCashPool, now: int, pick: nat): (s: Step)
    requires WisdomValid(env)
    ensures |s.out| == 1
    ensures Granted(s.out).Some? <==>
      && Parse(env.f, payload).Success?
      && CheckSender(Parse(env.f, payload).value, env.clientID)
      && env.key(Parse(env.f, payload).value) in pool
      && Accepted(env, Parse(env.f, payload).value, now)
    ensures Granted(s.out).Some? ==> Granted(s.out).value in env.wisdom.store.Values
  {
    match Parse(env.f, payload)
    case Failure(_) => Step([ErrorMessage(HeaderNotCorrectText)], pool)
    case Success(hc) =>
      if !CheckSender(hc, env.clientID) then Step([ErrorMessage(ClientNotFoundText)], pool)
      else if env.key(hc) !in pool then Step([ErrorMessage(ClientNotFoundText)], pool)
      else Step([Verdict(env, hc, now, pick)], Consume(env.key, pool, hc))
  }

  /** For a stamp the pool holds, the intended handler behaves exactly as the written one. */
  lemma CheckedAgreesWhenIssued(env: Env, payload: string, pool: HashCashPool, now: int, pick: nat)
    requires WisdomValid(env)
    requires Parse(env.f, payload).Success? && env.key(Parse(env.f, payload).value) in pool
    ensures RespondWisdomChecked(env, payload, pool, now, pick) == RespondWisdom(env, payload, pool, now, pick)
  {
  }

  /** With the intended handler, a stamp that obtained wisdom is refused when sent again. */
  lemma CheckedRejectsReplay(env: Env, payload: string, pool: HashCashPool, now: int, pick: nat, later: int, pick2: nat)
    requires WisdomValid(env) && KeyedBySelf(env.key, pool)
    requires Granted(RespondWisdomChecked(env, payload, pool, now, pick).out).Some?
    ensures var again := RespondWisdomChecked(env, payload, RespondWisdomChecked(env, payload, pool, now, pick).pool, later, pick2);
      again.out == [ErrorMessage(ClientNotFoundText)] && Granted(again.out).None?
  {
    var hc := Parse(env.f, payload).value;
    assert env.key(pool[env.key(hc)]) == env.key(hc);
  }

  /**
   Neither handler compares the submitted stamp with the pooled entry or
   with the configured difficulty: a stamp under a pooled key that asks for
   fewer zeros than `cfg.zeroBits` is granted wisdom when its own digest
   passes.
   */
  lemma CheckedAcceptsEasierStamp(env: Env, payload: string, pool: HashCashPool, now: int, pick: nat)
    requires WisdomValid(env)
    requires Parse(env.f, payload).Success? && Parse(env.f, payload).value.zeroBits < env.cfg.zeroBits
    requires CheckSender(Parse(env.f, payload).value, env.clientID)
    requires env.key(Parse(env.f, payload).value) in pool
    requires Accepted(env, Parse(env.f, payload).value, now)
    ensures Granted(RespondWisdomChecked(env, payload, pool, now, pick).out).Some?
    ensures Granted(RespondWisdom(env, payload, pool, now, pick).out).Some?
  {
  }
}

=== FILE: wrappers.dfy ===
/** Failure-compatible result types shared by every module of the model. */
module Wrappers {

  /** An optional value: the Go idiom `(v, ok)` or a nil pointer. */
  datatype Option<+T> = None | Some(value: T)

  /** A value or the error that replaced it: the Go idiom `(v, err)`. */
  datatype Result<+R, +E> = Success(value: R) | Failure(error: E)

  /** An error or nothing: the Go idiom of returning a bare `error`. */
  datatype Outcome<+E> = Pass | Fail(error: E)
}
